=== FILE: README.md ===
# ppats authentication core, modelled in Dafny

This project models the logic of the ppats Next.js application that is more
than presentation:

- the request gate in `middleware.ts`: public paths, static assets, the
  hand-written `Cookie` header parser, and the redirect to `/login`;
- the avatar of `components/Header.tsx`: the initial derived from the
  user's name or email, and the background class picked from it;
- the four authentication handlers: `POST /api/auth/register`,
  `POST /api/auth/login`, `POST /api/auth/refresh` and `GET /api/auth/me`.

The handlers sit on top of a model of the Mongoose `User` collection
(`models/User.ts`). The collection is a sequence of records in insertion
order. `findOne` returns the first match. `findById` casts its argument to
an ObjectId first. `save` is refused when the unique indexes on `_id` and
`email` are violated.

The foreign libraries are parameters: `jsonwebtoken` (through `lib/jwt.ts`),
`bcryptjs` and `decodeURIComponent`. Each is a record of functions. What the
application relies on is stated as a predicate that the lemmas take as a
precondition:

- `Crypto.RoundTrips`: a token verifies, under its own secret, to the claims
  it was signed with.
- `Crypto.Separated`: a token of one secret never verifies under the other.
  This holds only when `JWT_ACCESS_SECRET` and `JWT_REFRESH_SECRET` differ.
  `lib/jwt.ts:4-9` checks only that both are set, not that they differ.
- `Crypto.HashLawful`: a password matches its own hash.
- `Middleware.DecodesPlainText`: text without `%` decodes to itself.

`verify` is one fixed function per secret, and token expiry is part of it.
So under `RoundTrips` a token made by `sign` always verifies. The lemmas that
chain several requests under one `Keys` value (`Session.RegisterLoginMe`,
`Session.LoginRefreshMe`) therefore assume that no token expires between the
requests.

Modules, one per file:

| file | module | source |
|---|---|---|
| js_string.dfy | `JsString` | the ECMAScript string operations the code uses (`trim`, `split`, `join`, `startsWith`, `toUpperCase`) |
| json.dfy | `Json` | JSON bodies, and `select("-password")` |
| crypto.dfy | `Crypto` | `lib/jwt.ts` and bcrypt, as parameters |
| http.dfy | `Http` | responses, cookies, and the cookie store of `next/headers` |
| users.dfy | `Users` | `models/User.ts` and the queries the handlers issue |
| middleware.dfy | `Middleware` | `middleware.ts` |
| avatar.dfy | `Avatar` | `components/Header.tsx`, lines 11-39 |
| register.dfy, login.dfy, refresh.dfy, me.dfy | `Register`, `Login`, `Refresh`, `Me` | `app/api/auth/*/route.ts` |
| session.dfy | `Session` | the handlers and the gate used one after another |

The code's form is kept:

- The middleware, the avatar, login and `me` are functions.
- Register changes the collection in place. `Register.Post` is a
  module-level method that takes the `Users.UserCollection` object and
  changes it through its `Insert` method (`new User(...)` then `save()`).
  It is proved equal to the function `Register.Outcome`.
- Refresh writes the request's cookie store twice. `Refresh.Post` is a
  module-level method that takes the `Http.CookieStore` object and calls its
  `Set` method twice. It is proved equal to `Refresh.Outcome`.

Behaviours of the code that the model keeps as they are:

- Emails are compared exactly as sent, with no trimming or lower-casing.
- `me` returns the stored document (with `_id` and `role`, without the
  password).
- Refresh answers with a `message` as well as the user.

## Model

| member | source | states |
|---|---|---|
| JsString.Trim | components/Header.tsx:13 | `trim` gives the empty string exactly for an all-white-space string; otherwise the result neither starts nor ends with white space |
| JsString.TrimContent | components/Header.tsx:13 | `trim` removes only white space, and only at the two ends: `s == a + trim(s) + b` with `a` and `b` all white space |
| JsString.TrimUnspaced | middleware.ts:19 | trimming leaves a key that neither starts nor ends with white space unchanged |
| JsString.TrimLeadingSpace | middleware.ts:19 | trimming ignores the space after a `;` in a cookie header |
| JsString.IndexOf | middleware.ts:18 | finds the first occurrence of the character, or reports that there is none |
| JsString.Split | middleware.ts:17-18 | `split` on one character gives at least one piece, and no piece contains the separator |
| JsString.JoinSplit | middleware.ts:18-19 | joining the pieces of a split with the same separator gives back the original string |
| JsString.SplitAtFirst | middleware.ts:18-19 | the first piece is the text before the first separator; the remaining pieces, joined, are the text after it |
| JsString.SplitConcat | middleware.ts:17 | a string with a separator-free front splits into that front followed by the pieces of the rest |
| JsString.WordLength | components/Header.tsx:15 | the leading run of non-white-space characters ends at the first white space |
| JsString.FirstWord | components/Header.tsx:15 | `split(/\s+/)[0]` is the whole leading run of characters that are not white space: a prefix with no white space, followed by white space or the end of the string |
| JsString.ToUpper | components/Header.tsx:16 | upper-casing gives one character: `a`..`z` become `A`..`Z`, and every other character is kept |
| Crypto.DomainsDisjoint | lib/jwt.ts:11-17 | with two lawful secrets, no access token equals any refresh token |
| Json.Omit | app/api/auth/me/route.ts:27 | no kept member has the removed key, every kept member comes from the input, and every input member with another key is kept |
| Json.OmitLast | app/api/auth/me/route.ts:27 | members are removed one by one in order: the last member is kept after the others exactly when it has another key, which fixes order and count |
| Http.CookieStore.Get | app/api/auth/refresh/route.ts:22 | `get(name)?.value` is present exactly when the request carries that cookie, and holds its value |
| Http.CookieStore.Set | app/api/auth/refresh/route.ts:51-59 | `set` replaces the outgoing cookie of that name and leaves the request's cookies alone |
| Users.CastObjectId | app/api/auth/me/route.ts:27 | 24 hex digits of either case become the lower-case ObjectId; anything else is a cast error; an ObjectId is unchanged |
| Users.FindOne | app/api/auth/register/route.ts:17 | the result is a stored record that matches the filter, and it is absent exactly when none matches |
| Users.FindOneByUniqueEmail | models/User.ts:15 | under the unique indexes, looking up a stored record's email returns that record |
| Users.FindOneByUniqueId | app/api/auth/me/route.ts:27 | under the unique indexes, looking up a stored record's id returns that record |
| Users.Save | app/api/auth/register/route.ts:21-22 | saving succeeds exactly when neither the id nor the email is taken; it appends the record and keeps the indexes valid |
| Users.OmitPassword | app/api/auth/me/route.ts:27 | `select("-password")` removes the password and keeps every other field of the document in order |
| Users.PublicDocument | app/api/auth/me/route.ts:27 | the document without its password holds no `password` member at any depth |
| Users.PublicUser | app/api/auth/register/route.ts:25 | `{ id, email, name }` holds exactly the user's id, email and name (name dropped when missing; a `null` name is not modelled), no other member and no `password` |
| Users.UserCollection.Insert | app/api/auth/register/route.ts:21-22 | `save()` appends the document exactly when the unique indexes allow it, otherwise changes nothing, and keeps the indexes valid |
| Middleware.SegmentParts | middleware.ts:18-19 | the key is the trimmed text before the first `=`; the value is the untrimmed rest with later `=` kept; a segment without `=` has the empty value |
| Middleware.RawEntryAt | middleware.ts:17-19 | the entry for each `;`-separated segment is that segment's trimmed key and raw value |
| Middleware.DecodeValues | middleware.ts:19 | decoding succeeds exactly when every value decodes, and then each entry keeps its key and holds its decoded value |
| Middleware.DecodePlain | middleware.ts:19 | entries whose values hold no `%` come out of decoding unchanged |
| Middleware.FromEntriesLastWins | middleware.ts:17 | `Object.fromEntries`: a key is present exactly when some entry has it, and holds the value of its last entry |
| Middleware.ParseEmptyHeader | middleware.ts:16 | a missing header is read as `""`, which parses to the single entry `"" -> ""` and so has no `access_token` |
| Middleware.ParseOneCookie | middleware.ts:17-20 | the header `key=value` parses to the single cookie `trim(key) -> value` |
| Middleware.ParseTwoCookies | middleware.ts:17-20 | the header `k1=v1;k2=v2` parses to both cookies, the second overriding the first when the keys agree |
| Middleware.ParseCookiesSpec | middleware.ts:16-20 | on every header: parsing throws exactly when some segment's raw value does not decode; otherwise a key is present exactly when some segment has it, and holds the decoded value of the last such segment |
| Middleware.DecodedEntries | middleware.ts:17-19 | decoding then `Object.fromEntries` over any list of pairs fails exactly when a value does not decode, and otherwise keeps every key with its last pair's decoded value |
| Middleware.Decide | middleware.ts:21-37 | an exception exactly when the header did not parse; a pass exactly when `access_token` is present, non-empty and verifies; every other case redirects to exactly `/login` |
| Middleware.CheckAccessCookie | middleware.ts:16-37 | the cookie check after the public-path test only ever redirects to `/login`; its full rule is stated by `Middleware.CheckAccessCookieSpec` (present header) and `Middleware.AbsentHeaderRedirected` (missing header) |
| Middleware.CheckAccessCookieSpec | middleware.ts:16-37 | from a present `Cookie` header to the decision, in terms of its `;`-segments: an exception exactly when some segment's value does not decode; a pass exactly when every value decodes and the last `access_token` segment decodes to a non-empty token that verifies; every other request is redirected to exactly `/login` |
| Middleware.AbsentHeaderRedirected | middleware.ts:16 | a request without a `Cookie` header is redirected to `/login` |
| Middleware.CheckParsed | middleware.ts:21-37 | once parsed, the decision depends on the `access_token` entry alone: present, non-empty and verifying passes, else redirect |
| Middleware.SingleAccessCookie | middleware.ts:21-37 | with one `access_token` cookie the request passes exactly when it is non-empty and verifies; a failing token gets the missing-token redirect |
| Middleware.KeyWithoutValue | middleware.ts:18-22 | a bare `access_token` segment has the empty value and is redirected |
| Middleware.LastAccessCookieWins | middleware.ts:17 | with `access_token` sent twice, the second one decides |
| Middleware.Gate | middleware.ts:7-38 | as written, every path starting with `/` (so every matched path), `/_next` path or dotted path passes without a cookie check |
| Middleware.GateAdmitsAnonymousDashboard | middleware.ts:5 | an anonymous request for `/dashboard` passes the gate as written, while the corrected gate redirects it |
| Middleware.MatchedIsProtected | middleware.ts:40-42 | no matched path starts with a public prefix other than `/`, nor with `/_next` |
| Middleware.IntendedGate | middleware.ts:11-13 | with `/` matched exactly, a matched path without a dot gets the cookie check, and `/`, `/login`, the refresh endpoint, `/_next` and dotted paths pass |
| Avatar.NameWord | components/Header.tsx:15-16 | the first word of a trimmed name is empty exactly when the name is blank, and otherwise starts with the name's first character |
| Avatar.LocalPart | components/Header.tsx:20-21 | the part before `@` is empty exactly when the trimmed email is empty or starts with `@`, and otherwise starts with its first character |
| Avatar.Initial | components/Header.tsx:11-24 | with ASCII-only upper-casing, the initial is always exactly one character |
| Avatar.InitialFromName | components/Header.tsx:13-17 | a non-blank name decides the initial, whatever the email: its first non-blank character, upper-cased |
| Avatar.InitialFromEmail | components/Header.tsx:18-22 | with a blank or missing name, an email whose local part is not empty gives its first character, upper-cased |
| Avatar.InitialFallback | components/Header.tsx:11-23 | no user, or a blank name with a missing, blank or `@`-leading email, gives `U` |
| Avatar.DisplayedCharacter | components/Header.tsx:37 | the fallback to `U` after the initial never applies: the displayed character is the initial itself |
| Avatar.PaletteIndex | components/Header.tsx:38 | the index lies in `[0, 8)` and is congruent to the character code modulo 8 |
| Avatar.Background | components/Header.tsx:27-39 | the class is one of the eight palette entries, the one the initial's code selects |
| Avatar.AnonymousAvatar | components/Header.tsx:33-39 | without a user the avatar shows `U` on `bg-yellow-500` |
| Register.NewUser | app/api/auth/register/route.ts:20-21 | the stored record has the generated id, the given name and email, the hash of the password with 12 rounds, and role `user` |
| Register.Outcome | app/api/auth/register/route.ts:7-31 | 400, 409, 201 and 500 each under exactly their conditions, with the source's error bodies; only 201 changes the collection, by appending the new user; no body holds a password; the indexes stay valid |
| Register.Post | app/api/auth/register/route.ts:7-31 | the handler on the collection object gives exactly the response and new collection of `Register.Outcome` |
| Register.RegisteredUserFound | app/api/auth/register/route.ts:20-22 | after a 201, the email and the id both look up the new user, and the password matches its stored hash |
| Register.SecondRegistrationRefused | app/api/auth/register/route.ts:17-18 | registering an email a second time gives 409 "User exists" and leaves the collection unchanged |
| Register.EmailCaseSensitive | app/api/auth/register/route.ts:17 | an email that differs from a stored one only in letter case registers a new account |
| Login.CookieOptions | app/api/auth/login/route.ts:12-20 | cookies are HTTP-only, `secure` exactly in production, `SameSite=Lax`, path `/`, with the given max-age |
| Login.ClaimsOf | app/api/auth/login/route.ts:35-36 | tokens carry the user's id and email |
| Login.SessionCookies | app/api/auth/login/route.ts:41-44 | the access cookie (900 s, access secret) and then the refresh cookie (604800 s, refresh secret), both over the user's claims |
| Login.Post | app/api/auth/login/route.ts:22-51 | 200 exactly when the email is found and the password matches, and only then are cookies set; 400, 401 and 500 with the source's bodies; every credential failure is the same 401; no body holds a password |
| Login.FailuresLookAlike | app/api/auth/login/route.ts:29-33 | an unknown email and a wrong password get identical responses |
| Login.SessionIssued | app/api/auth/login/route.ts:35-44 | the access cookie verifies only as an access token, and the refresh cookie only as a refresh token, both to the found user's claims |
| Login.EmailNotTrimmed | app/api/auth/login/route.ts:29 | an email with a leading space does not find the account: 401 "Invalid credentials" |
| Refresh.IssuedCookie | app/api/auth/refresh/route.ts:51-59 | a refreshed cookie has the same attributes as `Login.CookieOptions` |
| Refresh.Rotated | app/api/auth/refresh/route.ts:51-69 | both cookies are replaced by exactly the two a login of the same user sets, and every other outgoing cookie is kept |
| Refresh.RefreshClaims | app/api/auth/refresh/route.ts:21-34 | claims are present exactly when the refresh cookie is present, non-empty and verifies under the refresh secret |
| Refresh.Outcome | app/api/auth/refresh/route.ts:18-79 | 401, 400, 500, 404 and 200 each under exactly their conditions, with the source's bodies; only 200 rotates the cookies, for the user stored under the token's id, answering "Token refreshed" and that user |
| Refresh.Post | app/api/auth/refresh/route.ts:18-79 | the handler on the cookie store gives exactly the response and outgoing cookies of `Refresh.Outcome`, and leaves the request's cookies alone |
| Refresh.RefreshRotates | app/api/auth/refresh/route.ts:41-69 | a refresh token issued for a stored user gives 200 and the cookies a login of that user sets |
| Refresh.AccessTokenRefused | app/api/auth/refresh/route.ts:29-34 | an access token in the refresh cookie gives 401 "Invalid refresh token" and sets no cookie |
| Refresh.ClaimsFromStore | app/api/auth/refresh/route.ts:47-48 | the new tokens carry the stored email, not the one in the old token |
| Me.AccessClaims | app/api/auth/me/route.ts:12-24 | claims are present exactly when the access cookie is present, non-empty and verifies under the access secret |
| Me.FindById | app/api/auth/me/route.ts:27 | an absent id finds nothing; an id that is not an ObjectId throws; otherwise the result is the stored user with the cast id, or nobody has that id |
| Me.Get | app/api/auth/me/route.ts:9-35 | 401, 500, 404 and 200 each under exactly their conditions, with the source's bodies; 200 returns the stored user's document without its password; no cookie is set |
| Me.TokenNamesUser | app/api/auth/me/route.ts:19-30 | an access token for a stored user returns that user's document |
| Me.RefreshTokenRefused | app/api/auth/me/route.ts:19-24 | a refresh token in the access cookie gives 401 "Invalid or expired token" |
| Me.TokenWithoutId | app/api/auth/me/route.ts:27-28 | a verified token without an id gives 404 "User not found" |
| Session.CompactIsPlain | lib/jwt.ts:11-17 | a signed token holds no `;` and no `%` and is not empty |
| Session.RegisterLoginMe | app/api/auth/login/route.ts:28-44 | after a 201 registration, logging in with the same credentials gives 200, and `me` with its access cookie returns the new user |
| Session.HeaderParses | middleware.ts:16-20 | the header `access_token=<a>; refresh_token=<r>` parses to exactly those two cookies |
| Session.TokensPassGate | middleware.ts:21-31 | a verifying access token sent with the refresh token opens every matched path under the corrected gate |
| Session.LoginCookiesPassGate | app/api/auth/login/route.ts:41-44 | the cookies a successful login sets, sent back, open every matched path under the corrected gate |
| Session.LoginRefreshMe | app/api/auth/refresh/route.ts:41-74 | after a login, the refresh cookie gives 200, and the new access cookie makes `me` return the same user |

## Left out

- The React rendering of every component and page, `UserContext`, and the dashboard pages.
- `app/dashboard/profile/page.tsx` computes its own initial differently; only the header's is modelled.
- `lib/mongoose.ts` is not part of this model: it holds the connection and its caching. A failed connection would be a 500 and is not modelled.
- The timestamps and the `__v` field Mongoose adds to a document.
- The text of the `Set-Cookie` header: how `serialize` formats a cookie and how login joins the two with ", ". Cookies are modelled as attribute records.
- `Login.Post`: the response is built as a value, so the in-place `res.headers.set` is not modelled.
- `NODE_ENV` is the `production` parameter. The JWT secrets are inside the `Signer` values, and token expiry is inside `verify`.
- bcrypt salts are random; `hash` is a parameter, so one call is one fixed value. The id the driver generates is a parameter too.
- Request bodies are modelled with string fields only. For `email` and `password`, `None` stands for an absent, `null` or `undefined` field, all of which are falsy and give 400. For `name`, `None` stands for an absent or `undefined` field only. A truthy non-string field (a number, `true`, an object or an array) passes the `!email || !password` test and reaches `findOne` or `save`, where Mongoose casts or rejects it. Such bodies are not modelled.
- Users.PublicUser: a `null` name is not modelled. The schema types `name` as a `String` with no default, so `register` stores `{"name": null}` as `name: null`, and the user object then carries `"name": null` where the model drops the member. The same holds for the bodies of `Register.Outcome`, `Login.Post`, `Refresh.Outcome` and `Me.Get`. The statuses, cookies and stored records do not depend on it.
- Users.CastObjectId: the 12-character strings Mongoose also accepts as ObjectIds are not modelled, and neither are non-string ids in a token.
- Concurrent requests are not modelled, so there is no check-then-insert race. Each handler runs alone against the collection.
- JsString.ToUpper: only `a`..`z` are upper-cased. Full Unicode case mapping, which can lengthen a string, is not modelled.
- Avatar.Initial: the one-character result holds only under that ASCII-only upper-casing. The program's `toUpperCase` turns a name starting with "ß" into the initial "SS" and one starting with "ﬁ" into "FI". It also maps letters outside `a`..`z` to other code points (U+0101 "ā" becomes U+0100 "Ā"), so `Avatar.Background` can pick a different palette entry for such names (index 1 in the model, index 0 in the program).
- One `char` stands for one UTF-16 code unit. Characters outside the Basic Multilingual Plane are not modelled.
- The `decodeURIComponent` error is kept as the `Uncaught` decision: it escapes the middleware, since the parse is outside the `try`.
- The static dashboard content route has no logic to model.

## Findings

| source | as written | input that shows it | evidently intended | confidence | as-written member | corrected member |
|---|---|---|---|---|---|---|
| middleware.ts:5 | `"/"` is a public path and public paths are matched with `startsWith`, so every pathname passes and the cookie check never runs | `/dashboard` with no cookie passes | `"/"` matched exactly, so the matched paths get the access-token check | high; not executed | Middleware.GateAdmitsAnonymousDashboard | Middleware.IntendedGate |

=== FILE: avatar.dfy ===
/** The avatar of `components/Header.tsx`: the initial shown for the
    signed-in user and the background colour chosen from it. */
module Avatar {
  import opened JsString

  /** The user the header reads from the user context; both fields are optional. */
  datatype SessionUser = SessionUser(name: Option<string>, email: Option<string>)

  /** `s?.trim()` */
  function TrimOptional(s: Option<string>): Option<string>
  {
    if s.None? then None else Some(Trim(s.value))
  }

  /** The `initial` closure: the first word of the name, else the part of the
      email before `@`, else "U"; the chosen character is upper-cased. */
  function Initial(user: Option<SessionUser>): (r: string)
    ensures |r| == 1
  {
    if user.None? then "U"
    else
      var name := TrimOptional(user.value.name);
      if !Falsy(name) && FirstWord(name.value) != "" then ToUpper(FirstWord(name.value)[0])
      else
        var email := TrimOptional(user.value.email);
        if !Falsy(email) && Split(email.value, '@')[0] != "" then ToUpper(Split(email.value, '@')[0][0])
        else "U"
  }

  /** The first word of a trimmed name is empty exactly when the name is
      blank, and otherwise starts with the trimmed name's first character. */
  lemma NameWord(name: string)
    ensures FirstWord(Trim(name)) == "" <==> Trim(name) == ""
    ensures Trim(name) != "" ==> FirstWord(Trim(name))[0] == Trim(name)[0]
  {
  }

  /** The local part of a trimmed email is empty exactly when the email is
      blank or starts with `@`, and otherwise starts with its first character. */
  lemma LocalPart(t: string)
    ensures Split(t, '@')[0] == "" <==> t == "" || t[0] == '@'
    ensures Split(t, '@')[0] != "" ==> Split(t, '@')[0][0] == t[0]
  {
    SplitAtFirst(t, '@');
  }

  /** A name that is not blank decides the initial, whatever the email: it is
      the first non-blank character of the name, upper-cased. */
  lemma InitialFromName(name: string, email: Option<string>)
    requires Trim(name) != ""
    ensures Initial(Some(SessionUser(Some(name), email))) == ToUpper(Trim(name)[0])
  {
    NameWord(name);
  }

  /** With a blank or missing name, the email decides when its trimmed form
      does not start with `@`: the initial is its first character, upper-cased. */
  lemma InitialFromEmail(name: Option<string>, email: string)
    requires name.None? || Trim(name.value) == ""
    requires Trim(email) != "" && Trim(email)[0] != '@'
    ensures Initial(Some(SessionUser(name, Some(email)))) == ToUpper(Trim(email)[0])
  {
    if name.Some? {
      NameWord(name.value);
    }
    LocalPart(Trim(email));
  }

  /** No user, or a blank name with an email that is missing, blank or has
      an empty local part (such as "@x.com"): the initial is "U". */
  lemma InitialFallback(user: Option<SessionUser>)
    requires user.Some? ==> user.value.name.None? || Trim(user.value.name.value) == ""
    requires user.Some? ==> user.value.email.None? || Trim(user.value.email.value) == ""
                            || Trim(user.value.email.value)[0] == '@'
    ensures Initial(user) == "U"
  {
    if user.Some? {
      if user.value.name.Some? {
        NameWord(user.value.name.value);
      }
      if user.value.email.Some? {
        LocalPart(Trim(user.value.email.value));
      }
    }
  }

  /** The avatar background classes. */
  const Palette: seq<string> := [
    "bg-neutral-900", "bg-blue-600", "bg-green-600", "bg-indigo-600",
    "bg-pink-600", "bg-yellow-500", "bg-purple-600", "bg-emerald-600"
  ]

  /** `initial || "U"`: the displayed character. The fallback never applies,
      since the initial is never empty. */
  function DisplayedCharacter(user: Option<SessionUser>): (c: string)
    ensures c == Initial(user)
  {
    var initial := Initial(user);
    if initial != "" then initial else "U"
  }

  /** `char.charCodeAt(0) % bgColors.length` */
  function PaletteIndex(c: string): (i: nat)
    requires c != ""
    ensures i < |Palette|
    ensures (i - c[0] as int) % 8 == 0
  {
    (c[0] as int) % |Palette|
  }

  /** The background class: always one of the palette's eight entries, the
      one the displayed character's code selects. */
  function Background(user: Option<SessionUser>): (bg: string)
    ensures bg in Palette
    ensures bg == Palette[(Initial(user)[0] as int) % 8]
  {
    Palette[PaletteIndex(DisplayedCharacter(user))]
  }

  /** Without a user the avatar shows "U" ('U' is 85, and 85 mod 8 is 5) on
      "bg-yellow-500". */
  lemma AnonymousAvatar()
    ensures DisplayedCharacter(None) == "U"
    ensures Background(None) == "bg-yellow-500"
  {
    assert 'U' as int == 85;
  }
}

=== FILE: crypto.dfy ===
/** The foreign cryptography the handlers call: JSON Web Tokens (RFC 7519),
    signed and checked through `lib/jwt.ts`, and bcrypt password hashing.
    Neither is implemented here. Each is a record of functions, and what the
    handlers rely on is stated as a predicate that lemmas take as `requires`. */
module Crypto {
  import opened JsString

  /** The claims the application signs, `{ id, email }`; a member the token
      does not carry is `None`. The registered `iat`/`exp` claims stay inside
      the signer. */
  datatype Claims = Claims(id: Option<string>, email: Option<string>)

  /** One signing domain of `lib/jwt.ts`: a secret and an expiry bound into
      `sign`, and `verify`, which is `None` wherever `jwt.verify` throws (bad
      signature, expired, malformed). The clock is folded into `verify`. */
  datatype Signer = Signer(sign: Claims -> string, verify: string -> Option<Claims>)

  /** The two independent domains: access tokens and refresh tokens. */
  datatype Keys = Keys(access: Signer, refresh: Signer)

  /** The alphabet of the JWS compact serialization (base64url digits and the
      `.` between the three parts, section 7.1 of RFC 7515). */
  predicate IsCompactChar(c: char)
  {
    'A' <= c <= 'Z' || 'a' <= c <= 'z' || '0' <= c <= '9' || c == '-' || c == '_' || c == '.'
  }

  predicate IsCompact(token: string)
  {
    token != [] && forall i :: 0 <= i < |token| ==> IsCompactChar(token[i])
  }

  /** A freshly signed token is a compact JWT and verifies, with the same
      secret, to the claims it was signed with. */
  ghost predicate RoundTrips(s: Signer)
  {
    forall c :: IsCompact(s.sign(c)) && s.verify(s.sign(c)) == Some(c)
  }

  /** A token of one domain never verifies in the other. */
  ghost predicate Separated(k: Keys)
  {
    forall c :: k.access.verify(k.refresh.sign(c)).None? && k.refresh.verify(k.access.sign(c)).None?
  }

  ghost predicate Lawful(k: Keys)
  {
    RoundTrips(k.access) && RoundTrips(k.refresh) && Separated(k)
  }

  /** Possession of a token of one domain does not give a token of the other:
      no access token is ever equal to a refresh token. */
  lemma DomainsDisjoint(k: Keys, c: Claims, d: Claims)
    requires Lawful(k)
    ensures k.access.sign(c) != k.refresh.sign(d)
  {
    assert k.refresh.verify(k.access.sign(c)).None?;
    assert k.refresh.verify(k.refresh.sign(d)) == Some(d);
  }

  /** The bcrypt work factor the register handler passes to `hash`. */
  const SaltRounds: nat := 12

  /** bcrypt's `hash(password, rounds)` and `compare(password, hash)`. */
  datatype Hasher = Hasher(hash: (string, nat) -> string, compare: (string, string) -> bool)

  /** A password always matches its own hash. */
  ghost predicate HashLawful(h: Hasher)
  {
    forall p, rounds :: h.compare(p, h.hash(p, rounds))
  }
}

=== FILE: http.dfy ===
/** What the route handlers hand back to Next.js: a status, a JSON body and
    cookies, plus the request-scoped cookie store of `next/headers`. */
module Http {
  import opened JsString
  import opened Json

  const AccessCookieName := "access_token"
  const RefreshCookieName := "refresh_token"

  /** Cookie lifetimes in seconds: 15 minutes and 7 days. */
  const AccessMaxAge: int := 60 * 15
  const RefreshMaxAge: int := 60 * 60 * 24 * 7

  /** The attributes a `Set-Cookie` carries; how they are serialized is not modelled. */
  datatype CookieAttributes = CookieAttributes(httpOnly: bool, secure: bool, sameSite: string, path: string, maxAge: int)

  datatype Cookie = Cookie(name: string, value: string, attributes: CookieAttributes)

  /** A response: status code, JSON body, and the cookies set through the
      `Set-Cookie` header of the response itself. */
  datatype Response = Response(status: int, body: Json, setCookie: seq<Cookie>)

  /** `NextResponse.json({ error: message }, { status })` */
  function ErrorResponse(status: int, message: string): Response
  {
    Response(status, JObject([Member("error", JString(message))]), [])
  }

  /** What every handler answers when something inside its `try` throws. */
  function ServerError(): Response
  {
    ErrorResponse(500, "Server error")
  }

  /** The mutable cookie store that `cookies()` returns inside a route
      handler: `get` reads the cookies of the request, `set` records a cookie
      for the response, a later `set` of the same name replacing an earlier one. */
  class CookieStore {
    var incoming: map<string, string>
    var outgoing: map<string, Cookie>

    constructor (requestCookies: map<string, string>)
      ensures incoming == requestCookies && outgoing == map[]
    {
      incoming := requestCookies;
      outgoing := map[];
    }

    /** `cookieStore.get(name)?.value` */
    function Get(name: string): (v: Option<string>)
      reads this
      ensures v.Some? <==> name in incoming
      ensures v.Some? ==> v.value == incoming[name]
    {
      if name in incoming then Some(incoming[name]) else None
    }

    /** `cookieStore.set({ name, value, ...attributes })` */
    method Set(c: Cookie)
      modifies this
      ensures incoming == old(incoming)
      ensures outgoing == old(outgoing)[c.name := c]
    {
      outgoing := outgoing[c.name := c];
    }
  }
}

=== FILE: js_string.dfy ===
/** The handful of ECMAScript string operations the application's logic is
    built from, over Dafny strings. One `char` stands for one UTF-16 code unit
    of the original (characters outside the Basic Multilingual Plane are not
    modelled). */
module JsString {

  datatype Option<+T> = None | Some(value: T)

  /** A string that JavaScript treats as false in a condition: `undefined`,
      `null` (both `None`) or the empty string. */
  predicate Falsy(s: Option<string>)
  {
    s.None? || s.value == ""
  }

  /** The WhiteSpace and LineTerminator code points of ECMA-262: what
      `String.prototype.trim` strips and what the regular expression `\s` matches. */
  predicate IsSpace(c: char)
  {
    || c == '\t' || c == '\n' || c == '\U{000B}' || c == '\U{000C}' || c == '\r'
    || c == ' ' || c == '\U{00A0}' || c == '\U{1680}'
    || ('\U{2000}' <= c <= '\U{200A}')
    || c == '\U{2028}' || c == '\U{2029}' || c == '\U{202F}' || c == '\U{205F}'
    || c == '\U{3000}' || c == '\U{FEFF}'
  }

  predicate AllSpace(s: string)
  {
    forall i :: 0 <= i < |s| ==> IsSpace(s[i])
  }

  /** `s.trimStart()`: drops the leading white space and nothing else. */
  function TrimStart(s: string): (r: string)
    ensures |r| <= |s| && r == s[|s| - |r|..]
    ensures AllSpace(s[..|s| - |r|])
    ensures r == [] || !IsSpace(r[0])
  {
    if s != [] && IsSpace(s[0]) then TrimStart(s[1..]) else s
  }

  /** `s.trimEnd()`: drops the trailing white space and nothing else. */
  function TrimEnd(s: string): (r: string)
    ensures |r| <= |s| && r == s[..|r|]
    ensures AllSpace(s[|r|..])
    ensures r == [] || !IsSpace(r[|r| - 1])
  {
    if s != [] && IsSpace(s[|s| - 1]) then
      var front := s[..|s| - 1];
      var r := TrimEnd(front);
      assert s[|r|..] == front[|r|..] + [s[|s| - 1]];
      AllSpaceConcat(front[|r|..], [s[|s| - 1]]);
      r
    else s
  }

  /** `s.trim()`: empty exactly when `s` is all white space; otherwise it
      starts and ends with a character that is not white space. What it
      removes is stated by `TrimContent`. */
  function Trim(s: string): (r: string)
    ensures r == [] <==> AllSpace(s)
    ensures r != [] ==> !IsSpace(r[0]) && !IsSpace(r[|r| - 1])
    ensures |r| <= |s|
  {
    var t := TrimStart(s);
    var r := TrimEnd(t);
    TrimParts(s, t, r);
    r
  }

  /** `s.trim()` removes white space and nothing else, and only at the two
      ends: `s` is the result with white space before and after it. */
  lemma TrimContent(s: string)
    ensures exists a, b :: s == a + Trim(s) + b && AllSpace(a) && AllSpace(b)
  {
    TrimParts(s, TrimStart(s), TrimEnd(TrimStart(s)));
  }

  /** Dropping white space at the front (`t`) and then at the back (`r`)
      leaves a slice of `s` with only white space on either side; it is
      empty exactly when `s` is all white space. */
  lemma TrimParts(s: string, t: string, r: string)
    requires |t| <= |s| && t == s[|s| - |t|..] && AllSpace(s[..|s| - |t|]) && (t == [] || !IsSpace(t[0]))
    requires |r| <= |t| && r == t[..|r|] && AllSpace(t[|r|..]) && (r == [] || !IsSpace(r[|r| - 1]))
    ensures r == [] <==> AllSpace(s)
    ensures r != [] ==> !IsSpace(r[0]) && !IsSpace(r[|r| - 1])
    ensures exists a, b :: s == a + r + b && AllSpace(a) && AllSpace(b)
  {
    var i := |s| - |t|;
    assert s == s[..i] + t;
    assert r == s[i..i + |r|] && s[i + |r|..] == t[|r|..];
    assert t == r + t[|r|..];
    assert s == s[..i] + r + s[i + |r|..] && AllSpace(s[..i]) && AllSpace(s[i + |r|..]);
    if r == [] {
      assert t[|r|..] == t;
      AllSpaceConcat(s[..i], t);
    } else {
      assert r[0] == t[0];
      assert r[|r| - 1] == s[i + |r| - 1];
    }
  }

  lemma AllSpaceConcat(a: string, b: string)
    requires AllSpace(a) && AllSpace(b)
    ensures AllSpace(a + b)
  {
    forall i | 0 <= i < |a + b| ensures IsSpace((a + b)[i]) {
      if i < |a| {
        assert (a + b)[i] == a[i];
      } else {
        assert (a + b)[i] == b[i - |a|];
      }
    }
  }

  /** Trimming leaves alone a string that neither starts nor ends with white space. */
  lemma TrimUnspaced(s: string)
    requires s == [] || (!IsSpace(s[0]) && !IsSpace(s[|s| - 1]))
    ensures Trim(s) == s
  {
    assert TrimStart(s) == s;
  }

  /** Trimming ignores a leading space. */
  lemma TrimLeadingSpace(s: string)
    ensures Trim(" " + s) == Trim(s)
  {
    assert (" " + s)[1..] == s;
  }

  /** `s.startsWith(prefix)` */
  predicate StartsWith(s: string, prefix: string)
  {
    prefix <= s
  }

  /** `s.indexOf(c)`, with `None` for -1: the position of the first `c`. */
  function IndexOf(s: string, c: char): (r: Option<nat>)
    ensures r.None? <==> c !in s
    ensures r.Some? ==> r.value < |s| && s[r.value] == c && c !in s[..r.value]
  {
    if s == [] then None
    else if s[0] == c then Some(0)
    else
      match IndexOf(s[1..], c)
      case None => None
      case Some(i) =>
        assert s[1..][..i] == s[1..i + 1];
        assert s[..i + 1] == [s[0]] + s[1..i + 1];
        Some(i + 1)
  }

  /** `s.split(sep)` for a one-character separator: the pieces between the
      separators, at least one of them, none containing the separator. */
  function Split(s: string, sep: char): (parts: seq<string>)
    ensures |parts| >= 1
    ensures forall i :: 0 <= i < |parts| ==> sep !in parts[i]
    decreases |s|
  {
    match IndexOf(s, sep)
    case None => [s]
    case Some(i) => [s[..i]] + Split(s[i + 1..], sep)
  }

  /** A string without the separator splits into itself alone. */
  lemma SplitWithout(s: string, sep: char)
    requires sep !in s
    ensures Split(s, sep) == [s]
  {
  }

  /** `parts.join(sep)` */
  function Join(parts: seq<string>, sep: char): string
  {
    if parts == [] then ""
    else if |parts| == 1 then parts[0]
    else parts[0] + [sep] + Join(parts[1..], sep)
  }

  /** Joining the pieces of a split with the same separator gives back the string. */
  lemma {:induction false} JoinSplit(s: string, sep: char)
    ensures Join(Split(s, sep), sep) == s
    decreases |s|
  {
    match IndexOf(s, sep)
    case None =>
    case Some(i) =>
      JoinSplit(s[i + 1..], sep);
      var rest := Split(s[i + 1..], sep);
      assert Split(s, sep) == [s[..i]] + rest;
      assert s == s[..i] + [sep] + s[i + 1..];
  }

  /** The first piece of `s.split(sep)` is everything before the first
      separator; the other pieces, joined again, are everything after it. */
  lemma SplitAtFirst(s: string, sep: char)
    ensures IndexOf(s, sep).None? ==> Split(s, sep) == [s]
    ensures IndexOf(s, sep).Some? ==>
      var i := IndexOf(s, sep).value;
      Split(s, sep)[0] == s[..i] && Join(Split(s, sep)[1..], sep) == s[i + 1..]
  {
    match IndexOf(s, sep)
    case None =>
    case Some(i) =>
      JoinSplit(s[i + 1..], sep);
      assert Split(s, sep)[1..] == Split(s[i + 1..], sep);
  }

  /** The first separator of `a + [sep] + b` is the one after `a` when `a` has none. */
  lemma {:induction false} IndexOfAfterFront(a: string, sep: char, b: string)
    requires sep !in a
    ensures IndexOf(a + [sep] + b, sep) == Some(|a|)
  {
    if a != [] {
      assert (a + [sep] + b)[1..] == a[1..] + [sep] + b;
      IndexOfAfterFront(a[1..], sep, b);
    }
  }

  /** A string with no separator in front splits into that front and the
      pieces of the rest. */
  lemma SplitConcat(a: string, sep: char, b: string)
    requires sep !in a
    ensures Split(a + [sep] + b, sep) == [a] + Split(b, sep)
  {
    var s := a + [sep] + b;
    IndexOfAfterFront(a, sep, b);
    assert s[..|a|] == a;
    assert s[|a| + 1..] == b;
  }

  /** The length of the leading run of characters that are not white space. */
  function WordLength(s: string): (k: nat)
    ensures k <= |s|
    ensures forall i :: 0 <= i < k ==> !IsSpace(s[i])
    ensures k < |s| ==> IsSpace(s[k])
  {
    if s == [] || IsSpace(s[0]) then 0 else 1 + WordLength(s[1..])
  }

  /** `s.split(/\s+/)[0]`: the text before the first white space, that is
      the whole leading run of characters that are not white space. */
  function FirstWord(s: string): (w: string)
    ensures StartsWith(s, w)
    ensures forall i :: 0 <= i < |w| ==> !IsSpace(w[i])
    ensures |w| < |s| ==> IsSpace(s[|w|])
    ensures s != [] && !IsSpace(s[0]) ==> w != [] && w[0] == s[0]
  {
    s[..WordLength(s)]
  }

  /** `String.fromCharCode(c).toUpperCase()`, for the Basic Latin block:
      `a`..`z` become `A`..`Z`, every other character is kept. */
  function ToUpper(c: char): (r: string)
    ensures |r| == 1
    ensures 'a' <= c <= 'z' ==> 'A' <= r[0] <= 'Z' && r[0] as int == c as int - 32
    ensures !('a' <= c <= 'z') ==> r == [c]
  {
    if 'a' <= c <= 'z' then [(c as int - 32) as char] else [c]
  }
}

=== FILE: json.dfy ===
/** JSON values as the handlers build them: strings and objects whose members
    keep their insertion order. */
module Json {
  import opened JsString

  datatype Json = JString(s: string) | JObject(members: seq<Member>)

  datatype Member = Member(key: string, value: Json)

  /** No object anywhere inside `j` has a member named `key`. */
  predicate Lacks(j: Json, key: string)
    decreases j
  {
    match j
    case JString(_) => true
    case JObject(ms) => forall i :: 0 <= i < |ms| ==> ms[i].key != key && Lacks(ms[i].value, key)
  }

  /** `obj[key]` for the first member named `key`. */
  function Field(j: Json, key: string): (r: Option<Json>)
    ensures r.Some? ==> j.JObject? && exists i :: 0 <= i < |j.members| && j.members[i] == Member(key, r.value)
    ensures r.None? ==> j.JString? || forall i :: 0 <= i < |j.members| ==> j.members[i].key != key
  {
    match j
    case JString(_) => None
    case JObject(ms) => FirstNamed(ms, key)
  }

  function FirstNamed(ms: seq<Member>, key: string): (r: Option<Json>)
    ensures r.Some? ==> exists i :: 0 <= i < |ms| && ms[i] == Member(key, r.value)
    ensures r.None? ==> forall i :: 0 <= i < |ms| ==> ms[i].key != key
  {
    if ms == [] then None
    else if ms[0].key == key then Some(ms[0].value)
    else
      var r := FirstNamed(ms[1..], key);
      assert forall i :: 0 <= i < |ms| - 1 ==> ms[1..][i] == ms[i + 1];
      r
  }

  /** The members other than those named `key`, in their order (a projection
      that excludes one field). */
  function Omit(ms: seq<Member>, key: string): (r: seq<Member>)
    ensures forall i :: 0 <= i < |r| ==> r[i].key != key && r[i] in ms
    ensures forall m :: m in ms && m.key != key ==> m in r
  {
    if ms == [] then []
    else if ms[0].key == key then Omit(ms[1..], key)
    else [ms[0]] + Omit(ms[1..], key)
  }

  /** Omitting distributes over concatenation. */
  lemma {:induction false} OmitConcat(a: seq<Member>, b: seq<Member>, key: string)
    ensures Omit(a + b, key) == Omit(a, key) + Omit(b, key)
  {
    if a == [] {
      assert a + b == b;
    } else {
      var ab := a + b;
      assert ab[0] == a[0] && ab[1..] == a[1..] + b;
      OmitConcat(a[1..], b, key);
      if a[0].key == key {
        assert Omit(ab, key) == Omit(a[1..] + b, key);
      } else {
        assert Omit(ab, key) == [a[0]] + Omit(a[1..] + b, key);
        assert Omit(a, key) == [a[0]] + Omit(a[1..], key);
      }
    }
  }

  /** Omitting works member by member from the front: the last member is
      kept, after the kept members before it, exactly when it is not named
      `key`. With `Omit([], key) == []` this fixes the order and the count of
      the kept members. */
  lemma OmitLast(ms: seq<Member>, key: string)
    requires ms != []
    ensures Omit(ms, key) == Omit(ms[..|ms| - 1], key) + (if ms[|ms| - 1].key == key then [] else [ms[|ms| - 1]])
  {
    var front, last := ms[..|ms| - 1], ms[|ms| - 1];
    assert ms == front + [last];
    OmitConcat(front, [last], key);
    assert [last][1..] == [];
  }

  /** Omitting a key no member has changes nothing. */
  lemma {:induction false} OmitNothing(ms: seq<Member>, key: string)
    requires forall i :: 0 <= i < |ms| ==> ms[i].key != key
    ensures Omit(ms, key) == ms
  {
    if ms != [] {
      OmitNothing(ms[1..], key);
    }
  }
}

=== FILE: login.dfy ===
/** `POST /api/auth/login` (`app/api/auth/login/route.ts`): checks an email
    and password against the stored bcrypt hash and, on success, issues an
    access token and a refresh token as cookies. */
module Login {
  import opened JsString
  import opened Json
  import opened Crypto
  import opened Http
  import opened Users

  /** The fields read from the parsed JSON body. `None` stands for a field
      that is absent, `null` or `undefined`; fields holding numbers, booleans,
      objects or arrays are outside the model. */
  datatype LoginBody = LoginBody(email: Option<string>, password: Option<string>)

  /** `cookieOptions({ maxAge })`: HTTP-only, `secure` exactly in production,
      `SameSite=Lax`, for the whole site. */
  function CookieOptions(maxAge: int, production: bool): (a: CookieAttributes)
    ensures a.httpOnly && a.secure == production
    ensures a.sameSite == "lax" && a.path == "/" && a.maxAge == maxAge
  {
    CookieAttributes(true, production, "lax", "/", maxAge)
  }

  /** The claims both tokens carry, `{ id: user._id, email: user.email }`. */
  function ClaimsOf(u: UserRecord): (c: Claims)
    ensures c.id == Some(u.id) && c.email == Some(u.email)
  {
    Claims(Some(u.id), Some(u.email))
  }

  /** The two `Set-Cookie` values of a successful login: the access token for
      15 minutes, then the refresh token for 7 days, both over the user's claims. */
  function SessionCookies(u: UserRecord, keys: Keys, production: bool): (cs: seq<Cookie>)
    ensures |cs| == 2
    ensures cs[0] == Cookie(AccessCookieName, keys.access.sign(ClaimsOf(u)), CookieOptions(900, production))
    ensures cs[1] == Cookie(RefreshCookieName, keys.refresh.sign(ClaimsOf(u)), CookieOptions(604800, production))
  {
    var accessToken := keys.access.sign(ClaimsOf(u));
    var refreshToken := keys.refresh.sign(ClaimsOf(u));
    [ Cookie(AccessCookieName, accessToken, CookieOptions(AccessMaxAge, production)),
      Cookie(RefreshCookieName, refreshToken, CookieOptions(RefreshMaxAge, production)) ]
  }

  predicate HasCredentials(b: LoginBody)
  {
    !Falsy(b.email) && !Falsy(b.password)
  }

  /** The credentials are good: a user with exactly this email exists and
      bcrypt accepts the password against the first such user's hash. */
  predicate Authenticates(users: seq<UserRecord>, b: LoginBody, hasher: Hasher)
    requires HasCredentials(b)
  {
    var found := FindOne(users, ByEmail(b.email.value));
    found.Some? && hasher.compare(b.password.value, found.value.password)
  }

  /** The handler. `body` is `None` when the request body is not JSON, which
      throws. It answers 200 exactly for good credentials, and only then sets
      cookies; every failure of the credentials gets one and the same 401;
      no answer carries a password. */
  function Post(users: seq<UserRecord>, body: Option<LoginBody>, hasher: Hasher, keys: Keys, production: bool)
    : (res: Response)
    ensures res.status == 200 <==> body.Some? && HasCredentials(body.value) && Authenticates(users, body.value, hasher)
    ensures res.status == 400 <==> body.Some? && !HasCredentials(body.value)
    ensures res.status == 401 <==>
      body.Some? && HasCredentials(body.value) && !Authenticates(users, body.value, hasher)
    ensures res.status == 401 ==> res == ErrorResponse(401, "Invalid credentials")
    ensures res.status in {200, 400, 401, 500}
    ensures res.status == 400 ==> res == ErrorResponse(400, "Missing fields")
    ensures res.status == 500 ==> res == ServerError()
    ensures res.status == 200 ==>
      var u := FindOne(users, ByEmail(body.value.email.value)).value;
      res.body == JObject([Member("user", PublicUser(u))]) && res.setCookie == SessionCookies(u, keys, production)
    ensures res.status != 200 ==> res.setCookie == []
    ensures Lacks(res.body, "password")
  {
    if body.None? then ServerError()
    else if !HasCredentials(body.value) then ErrorResponse(400, "Missing fields")
    else
      match FindOne(users, ByEmail(body.value.email.value))
      case None => ErrorResponse(401, "Invalid credentials")
      case Some(user) =>
        if !hasher.compare(body.value.password.value, user.password) then ErrorResponse(401, "Invalid credentials")
        else Response(200, JObject([Member("user", PublicUser(user))]), SessionCookies(user, keys, production))
  }

  predicate EmailKnown(users: seq<UserRecord>, email: string)
  {
    exists i :: 0 <= i < |users| && users[i].email == email
  }

  /** An unknown email and a wrong password for a known one get identical
      answers, so the response does not tell which accounts exist. */
  lemma FailuresLookAlike(users: seq<UserRecord>, unknown: LoginBody, wrong: LoginBody, hasher: Hasher, keys: Keys, production: bool)
    requires HasCredentials(unknown) && forall i :: 0 <= i < |users| ==> users[i].email != unknown.email.value
    requires HasCredentials(wrong) && EmailKnown(users, wrong.email.value)
    requires !hasher.compare(wrong.password.value, FindOne(users, ByEmail(wrong.email.value)).value.password)
    ensures Post(users, Some(unknown), hasher, keys, production) == Post(users, Some(wrong), hasher, keys, production)
  {
  }

  /** The cookies a successful login sets carry the user's claims: under
      lawful keys the access cookie verifies as an access token and the
      refresh cookie as a refresh token, to `{ id, email }` of the stored
      user, and neither verifies in the other's domain. */
  lemma SessionIssued(users: seq<UserRecord>, b: LoginBody, hasher: Hasher, keys: Keys, production: bool)
    requires Lawful(keys)
    requires Post(users, Some(b), hasher, keys, production).status == 200
    ensures var res := Post(users, Some(b), hasher, keys, production);
      var u := FindOne(users, ByEmail(b.email.value)).value;
      && u in users && u.email == b.email.value
      && keys.access.verify(res.setCookie[0].value) == Some(ClaimsOf(u))
      && keys.refresh.verify(res.setCookie[1].value) == Some(ClaimsOf(u))
      && keys.refresh.verify(res.setCookie[0].value).None?
      && keys.access.verify(res.setCookie[1].value).None?
  {
    var u := FindOne(users, ByEmail(b.email.value)).value;
    assert keys.access.verify(keys.access.sign(ClaimsOf(u))) == Some(ClaimsOf(u));
    assert keys.refresh.verify(keys.refresh.sign(ClaimsOf(u))) == Some(ClaimsOf(u));
    assert keys.refresh.verify(keys.access.sign(ClaimsOf(u))).None?;
    assert keys.access.verify(keys.refresh.sign(ClaimsOf(u))).None?;
  }

  /** The email is looked up exactly as sent: with a leading space it does
      not find the account, and the login fails. */
  lemma EmailNotTrimmed(stored: UserRecord, password: string, hasher: Hasher, keys: Keys, production: bool)
    requires stored.email == "a@b.com" && password != ""
    ensures Post([stored], Some(LoginBody(Some(" a@b.com"), Some(password))), hasher, keys, production)
         == ErrorResponse(401, "Invalid credentials")
  {
    assert |" a@b.com"| != |"a@b.com"|;
  }
}

=== FILE: me.dfy ===
/** `GET /api/auth/me` (`app/api/auth/me/route.ts`): returns the stored user
    named by a valid access-token cookie, without its password. */
module Me {
  import opened JsString
  import opened Json
  import opened Crypto
  import opened Http
  import opened Users

  /** The claims of the request's access cookie, when it is present, not
      empty, and verifies as an access token. */
  function AccessClaims(cookies: map<string, string>, access: Signer): (c: Option<Claims>)
    ensures c.Some? <==> AccessCookieName in cookies && cookies[AccessCookieName] != ""
                         && access.verify(cookies[AccessCookieName]).Some?
    ensures c.Some? ==> access.verify(cookies[AccessCookieName]) == c
  {
    if AccessCookieName !in cookies || cookies[AccessCookieName] == "" then None
    else access.verify(cookies[AccessCookieName])
  }

  /** `User.findById(id)`: an absent id finds nothing; an id that is not an
      ObjectId makes the query throw (`None`); otherwise the user with that
      id, if any. */
  function FindById(users: seq<UserRecord>, id: Option<string>): (r: Option<Option<UserRecord>>)
    ensures r.None? <==> id.Some? && CastObjectId(id.value).None?
    ensures id.None? ==> r == Some(None)
    ensures r.Some? && r.value.Some? ==> r.value.value in users && Some(r.value.value.id) == CastObjectId(id.value)
    ensures r.Some? && r.value.None? && id.Some? ==>
      forall i :: 0 <= i < |users| ==> users[i].id != CastObjectId(id.value).value
  {
    if id.None? then Some(None)
    else
      match CastObjectId(id.value)
      case None => None
      case Some(oid) => Some(FindOne(users, ById(oid)))
  }

  /** The handler, on the request's cookies. 401 without a usable access
      token, 500 when the token's id is not an ObjectId, 404 when it names no
      stored user (or has no id), otherwise 200 with the stored document,
      password removed. No cookie is set. */
  function Get(users: seq<UserRecord>, cookies: map<string, string>, access: Signer): (res: Response)
    ensures res.status == 401 <==> AccessClaims(cookies, access).None?
    ensures res.status == 401 ==> res == ErrorResponse(401,
      if AccessCookieName in cookies && cookies[AccessCookieName] != "" then "Invalid or expired token" else "Not authenticated")
    ensures res.status == 404 ==> res == ErrorResponse(404, "User not found")
    ensures res.status == 500 ==> res == ServerError()
    ensures res.status == 500 <==>
      AccessClaims(cookies, access).Some? && FindById(users, AccessClaims(cookies, access).value.id).None?
    ensures res.status in {200, 401, 404, 500}
    ensures res.status == 404 <==>
      AccessClaims(cookies, access).Some? && FindById(users, AccessClaims(cookies, access).value.id) == Some(None)
    ensures res.status == 200 ==>
      var id := AccessClaims(cookies, access).value.id;
      && FindById(users, id).Some? && FindById(users, id).value.Some?
      && var u := FindById(users, id).value.value;
      u in users && Some(u.id) == CastObjectId(id.value) && res.body == JObject([Member("user", PublicDocument(u))])
    ensures res.setCookie == [] && Lacks(res.body, "password")
  {
    if AccessCookieName !in cookies || cookies[AccessCookieName] == "" then ErrorResponse(401, "Not authenticated")
    else
      match AccessClaims(cookies, access)
      case None => ErrorResponse(401, "Invalid or expired token")
      case Some(payload) =>
        match FindById(users, payload.id)
        case None => ServerError()
        case Some(None) => ErrorResponse(404, "User not found")
        case Some(Some(user)) =>
          var doc := PublicDocument(user);
          Response(200, JObject([Member("user", doc)]), [])
  }

  /** An access token signed for a stored user returns that user's document. */
  lemma TokenNamesUser(users: seq<UserRecord>, k: nat, cookies: map<string, string>, email: Option<string>, access: Signer)
    requires Indexed(users) && k < |users| && RoundTrips(access)
    requires AccessCookieName in cookies && cookies[AccessCookieName] == access.sign(Claims(Some(users[k].id), email))
    ensures Get(users, cookies, access) == Response(200, JObject([Member("user", PublicDocument(users[k]))]), [])
  {
    var c := Claims(Some(users[k].id), email);
    assert access.verify(access.sign(c)) == Some(c);
    assert IsCompact(access.sign(c));
    assert IsObjectId(users[k].id);
    FindOneByUniqueId(users, k);
  }

  /** A refresh token presented as the access cookie is refused. */
  lemma RefreshTokenRefused(users: seq<UserRecord>, cookies: map<string, string>, c: Claims, keys: Keys)
    requires Separated(keys) && RoundTrips(keys.refresh)
    requires AccessCookieName in cookies && cookies[AccessCookieName] == keys.refresh.sign(c)
    ensures Get(users, cookies, keys.access) == ErrorResponse(401, "Invalid or expired token")
  {
    assert keys.access.verify(keys.refresh.sign(c)).None?;
    assert IsCompact(keys.refresh.sign(c));
  }

  /** A valid token without an `id` claim looks up `undefined`, which finds
      nothing: 404, not 400 as in the refresh handler. */
  lemma TokenWithoutId(users: seq<UserRecord>, cookies: map<string, string>, email: Option<string>, access: Signer)
    requires RoundTrips(access)
    requires AccessCookieName in cookies && cookies[AccessCookieName] == access.sign(Claims(None, email))
    ensures Get(users, cookies, access) == ErrorResponse(404, "User not found")
  {
    var c := Claims(None, email);
    assert access.verify(access.sign(c)) == Some(c);
    assert IsCompact(access.sign(c));
  }
}

=== FILE: middleware.dfy ===
/** The request gate of `middleware.ts`: which requests go through
    untouched, how the raw `Cookie` header is read, and when the user is sent
    to the login page. */
module Middleware {
  import opened JsString
  import opened Crypto
  import opened Http

  /** `PUBLIC_PATHS`, matched by prefix. */
  const PublicPaths: seq<string> := ["/", "/login", "/register", "/api/auth/login", "/api/auth/register", "/api/auth/refresh"]

  const LoginPath := "/login"

  /** `NextResponse.next()`, a redirect to the request URL with its pathname
      replaced, or an exception that escapes the middleware (a malformed
      percent-escape makes `decodeURIComponent` throw outside the `try`). */
  datatype Decision = Next | Redirect(pathname: string) | Uncaught

  predicate IsPublic(pathname: string)
  {
    exists i :: 0 <= i < |PublicPaths| && StartsWith(pathname, PublicPaths[i])
  }

  /** Public paths, anything under `/_next`, and anything with a dot in it
      (taken for a static asset) pass without a cookie check. */
  predicate Bypasses(pathname: string)
  {
    IsPublic(pathname) || StartsWith(pathname, "/_next") || '.' in pathname
  }

  /** `path` or anything below it, as `path/:path*` matches. */
  predicate Under(pathname: string, path: string)
  {
    pathname == path || StartsWith(pathname, path + "/")
  }

  /** The request paths `config.matcher` sends through the middleware. */
  predicate Matched(pathname: string)
  {
    Under(pathname, "/dashboard") || Under(pathname, "/profile") || Under(pathname, "/settings")
    || pathname == "/api/content/dashboard"
  }

  /** `decodeURIComponent` leaves text without a `%` as it is. */
  ghost predicate DecodesPlainText(decode: string -> Option<string>)
  {
    forall s :: '%' !in s ==> decode(s) == Some(s)
  }

  /** The key of one `;`-separated segment: the text before the first `=`,
      trimmed. */
  function SegmentKey(segment: string): string
  {
    Trim(Split(segment, '=')[0])
  }

  /** The raw value of one segment: the other `=`-pieces joined again. */
  function SegmentValue(segment: string): string
  {
    Join(Split(segment, '=')[1..], '=')
  }

  /** The key is the trimmed text before the first `=` and the value is the
      untrimmed text after it, later `=` included; a segment without `=` is
      all key, with the empty value. */
  lemma SegmentParts(segment: string)
    ensures '=' !in segment ==> SegmentKey(segment) == Trim(segment) && SegmentValue(segment) == ""
    ensures '=' in segment ==>
      var i := IndexOf(segment, '=').value;
      SegmentKey(segment) == Trim(segment[..i]) && SegmentValue(segment) == segment[i + 1..]
  {
    SplitAtFirst(segment, '=');
  }

  /** Each segment as its (key, raw value) pair. */
  function RawEntries(segments: seq<string>): (r: seq<(string, string)>)
    ensures |r| == |segments|
  {
    if segments == [] then []
    else [(SegmentKey(segments[0]), SegmentValue(segments[0]))] + RawEntries(segments[1..])
  }

  /** The entry at each position is that segment's key and raw value. */
  lemma {:induction false} RawEntryAt(segments: seq<string>, i: nat)
    requires i < |segments|
    ensures RawEntries(segments)[i] == (SegmentKey(segments[i]), SegmentValue(segments[i]))
  {
    if i > 0 {
      RawEntryAt(segments[1..], i - 1);
      assert segments[1..][i - 1] == segments[i];
    }
  }

  /** `decodeURIComponent` applied to every value, or `None` when it throws
      on some value; the keys are kept. */
  function DecodeValues(raw: seq<(string, string)>, decode: string -> Option<string>): (r: Option<seq<(string, string)>>)
    ensures r.Some? <==> forall i :: 0 <= i < |raw| ==> decode(raw[i].1).Some?
    ensures r.Some? ==> |r.value| == |raw|
    ensures r.Some? ==> forall i :: 0 <= i < |raw| ==> r.value[i] == (raw[i].0, decode(raw[i].1).value)
  {
    if raw == [] then Some([])
    else
      var tail := raw[1..];
      match decode(raw[0].1)
      case None => None
      case Some(v) =>
        match DecodeValues(tail, decode)
        case None =>
          assert exists j :: 0 <= j < |tail| && decode(tail[j].1).None?;
          var j :| 0 <= j < |tail| && decode(tail[j].1).None?;
          assert tail[j] == raw[j + 1];
          None
        case Some(rest) =>
          var r := [(raw[0].0, v)] + rest;
          assert forall i :: 1 <= i < |raw| ==> tail[i - 1] == raw[i] && r[i] == rest[i - 1];
          Some(r)
  }

  /** `Object.fromEntries(entries)`: entries are added in order, so a later
      entry replaces an earlier one with the same key. */
  function FromEntries(entries: seq<(string, string)>): map<string, string>
  {
    if entries == [] then map[]
    else FromEntries(entries[..|entries| - 1])[entries[|entries| - 1].0 := entries[|entries| - 1].1]
  }

  /** A key is present exactly when some entry has it, and it holds the value
      of the last such entry. */
  lemma {:induction false} FromEntriesLastWins(entries: seq<(string, string)>, k: string)
    ensures k in FromEntries(entries) <==> exists i :: 0 <= i < |entries| && entries[i].0 == k
    ensures forall i :: (0 <= i < |entries| && entries[i].0 == k
      && (forall j :: i < j < |entries| ==> entries[j].0 != k)) ==> FromEntries(entries)[k] == entries[i].1
  {
    if entries != [] {
      var front := entries[..|entries| - 1];
      FromEntriesLastWins(front, k);
      assert forall i :: 0 <= i < |front| ==> front[i] == entries[i];
    }
  }

  /** The cookie object the middleware builds from a raw header. */
  function ParseCookies(header: string, decode: string -> Option<string>): Option<map<string, string>>
  {
    match DecodeValues(RawEntries(Split(header, ';')), decode)
    case None => None
    case Some(entries) => Some(FromEntries(entries))
  }

  /** Decoding then collecting any list of (key, raw value) pairs: it fails
      exactly when some raw value does not decode; otherwise a key is present
      exactly when some pair has it, and holds the decoded value of the last
      such pair. */
  lemma DecodedEntries(raw: seq<(string, string)>, decode: string -> Option<string>, k: string)
    ensures DecodeValues(raw, decode).None? <==> exists i :: 0 <= i < |raw| && decode(raw[i].1).None?
    ensures DecodeValues(raw, decode).Some? ==>
      (k in FromEntries(DecodeValues(raw, decode).value) <==> exists i :: 0 <= i < |raw| && raw[i].0 == k)
    ensures DecodeValues(raw, decode).Some? ==>
      forall i :: 0 <= i < |raw| && raw[i].0 == k && (forall j :: i < j < |raw| ==> raw[j].0 != k)
        ==> FromEntries(DecodeValues(raw, decode).value)[k] == decode(raw[i].1).value
  {
    var decoded := DecodeValues(raw, decode);
    if decoded.Some? {
      var entries := decoded.value;
      FromEntriesLastWins(entries, k);
      assert forall i :: 0 <= i < |raw| ==> entries[i].0 == raw[i].0 && entries[i].1 == decode(raw[i].1).value;
    }
  }

  /** On every header, with `raw` the (key, raw value) pair of each
      `;`-segment (`RawEntryAt`): parsing fails exactly when some raw value
      does not decode; otherwise a key is present exactly when some segment
      has it, and holds the decoded value of the last such segment. */
  lemma ParseCookiesSpec(header: string, raw: seq<(string, string)>, decode: string -> Option<string>, k: string)
    requires raw == RawEntries(Split(header, ';'))
    ensures ParseCookies(header, decode).None? <==> exists i :: 0 <= i < |raw| && decode(raw[i].1).None?
    ensures ParseCookies(header, decode).Some? ==>
      (k in ParseCookies(header, decode).value <==> exists i :: 0 <= i < |raw| && raw[i].0 == k)
    ensures ParseCookies(header, decode).Some? ==>
      forall i :: 0 <= i < |raw| && raw[i].0 == k && (forall j :: i < j < |raw| ==> raw[j].0 != k)
        ==> ParseCookies(header, decode).value[k] == decode(raw[i].1).value
  {
    DecodedEntries(raw, decode, k);
  }

  /** The `Cookie` header as the middleware reads it: a missing one is "". */
  function HeaderText(cookieHeader: Option<string>): string
  {
    if cookieHeader.Some? then cookieHeader.value else ""
  }

  /** The decision on the parsed cookies: an exception when the header did
      not parse, otherwise a pass exactly when `access_token` is present, not
      empty and verifies, and a redirect to the login page in every other case. */
  function Decide(parsed: Option<map<string, string>>, access: Signer): (d: Decision)
    ensures d == Uncaught <==> parsed.None?
    ensures d == Next <==>
      parsed.Some? && AccessCookieName in parsed.value && parsed.value[AccessCookieName] != ""
      && access.verify(parsed.value[AccessCookieName]).Some?
    ensures d.Redirect? ==> d.pathname == LoginPath
  {
    match parsed
    case None => Uncaught
    case Some(cookies) =>
      if AccessCookieName !in cookies || cookies[AccessCookieName] == "" then Redirect(LoginPath)
      else if access.verify(cookies[AccessCookieName]).Some? then Next
      else Redirect(LoginPath)
  }

  /** Everything after the public-path test: read `access_token` from the
      `Cookie` header (missing header = ""), redirect when it is absent or
      empty, otherwise pass exactly when it verifies; a header that does not
      parse makes the middleware throw. The rule in terms of the header's
      segments is `CheckAccessCookieSpec`; a missing header is
      `AbsentHeaderRedirected`. */
  function CheckAccessCookie(cookieHeader: Option<string>, decode: string -> Option<string>, access: Signer): (d: Decision)
    ensures d.Redirect? ==> d == Redirect(LoginPath)
  {
    Decide(ParseCookies(HeaderText(cookieHeader), decode), access)
  }

  /** The cookies of an absent header hold no `access_token`. */
  lemma NoAccessCookie(access: Signer)
    ensures Decide(Some(map["" := ""]), access) == Redirect(LoginPath)
  {
    assert AccessCookieName != "";
  }

  /** A key that some pair has has a last pair with it. */
  lemma {:induction false} LastWith(raw: seq<(string, string)>, k: string)
    requires exists i :: 0 <= i < |raw| && raw[i].0 == k
    ensures exists i :: 0 <= i < |raw| && raw[i].0 == k && forall j :: i < j < |raw| ==> raw[j].0 != k
  {
    var n := |raw| - 1;
    if raw[n].0 != k {
      var front := raw[..n];
      assert forall i :: 0 <= i < n ==> front[i] == raw[i];
      assert exists i :: 0 <= i < |front| && front[i].0 == k;
      LastWith(front, k);
      var i :| 0 <= i < |front| && front[i].0 == k && forall j :: i < j < |front| ==> front[j].0 != k;
      assert raw[i].0 == k && forall j :: i < j < |raw| ==> raw[j].0 != k;
    }
  }

  /** `Decide` on any parse result that relates to the pairs `raw` as
      `ParseCookiesSpec` states for `access_token`. */
  lemma DecideOnEntries(parsed: Option<map<string, string>>, raw: seq<(string, string)>, decode: string -> Option<string>, access: Signer)
    requires parsed.None? <==> exists i :: 0 <= i < |raw| && decode(raw[i].1).None?
    requires parsed.Some? ==>
      (AccessCookieName in parsed.value <==> exists i :: 0 <= i < |raw| && raw[i].0 == AccessCookieName)
    requires parsed.Some? ==>
      forall i :: 0 <= i < |raw| && raw[i].0 == AccessCookieName && (forall j :: i < j < |raw| ==> raw[j].0 != AccessCookieName)
        ==> parsed.value[AccessCookieName] == decode(raw[i].1).value
    ensures Decide(parsed, access) == Uncaught <==> exists i :: 0 <= i < |raw| && decode(raw[i].1).None?
    ensures Decide(parsed, access) == Next <==>
      && (forall i :: 0 <= i < |raw| ==> decode(raw[i].1).Some?)
      && exists i :: 0 <= i < |raw| && raw[i].0 == AccessCookieName
           && (forall j :: i < j < |raw| ==> raw[j].0 != AccessCookieName)
           && decode(raw[i].1).value != "" && access.verify(decode(raw[i].1).value).Some?
  {
    if parsed.Some? && AccessCookieName in parsed.value {
      LastWith(raw, AccessCookieName);
    }
  }

  /** The whole rule from a present header to the decision (a missing one is
      `AbsentHeaderRedirected`), with `raw` the (key, raw value) pair of each
      `;`-segment: the middleware throws exactly when some value does not
      decode; it passes exactly when every value decodes and the last
      `access_token` segment decodes to a non-empty token that verifies;
      every other request is redirected to exactly `/login`. */
  lemma CheckAccessCookieSpec(header: string, raw: seq<(string, string)>, decode: string -> Option<string>, access: Signer)
    requires raw == RawEntries(Split(header, ';'))
    ensures CheckAccessCookie(Some(header), decode, access) == Uncaught <==> exists i :: 0 <= i < |raw| && decode(raw[i].1).None?
    ensures CheckAccessCookie(Some(header), decode, access) == Next <==>
      && (forall i :: 0 <= i < |raw| ==> decode(raw[i].1).Some?)
      && exists i :: 0 <= i < |raw| && raw[i].0 == AccessCookieName
           && (forall j :: i < j < |raw| ==> raw[j].0 != AccessCookieName)
           && decode(raw[i].1).value != "" && access.verify(decode(raw[i].1).value).Some?
    ensures CheckAccessCookie(Some(header), decode, access).Redirect? ==>
      CheckAccessCookie(Some(header), decode, access) == Redirect(LoginPath)
  {
    ParseCookiesSpec(header, raw, decode, AccessCookieName);
    DecideOnEntries(ParseCookies(header, decode), raw, decode, access);
  }

  /** A missing header is read as "", which parses to no `access_token`. */
  lemma AbsentHeaderParses(cookieHeader: Option<string>, decode: string -> Option<string>)
    requires cookieHeader.None? && DecodesPlainText(decode)
    ensures ParseCookies(HeaderText(cookieHeader), decode) == Some(map["" := ""])
  {
    ParseEmptyHeader(decode);
  }

  /** A request without a `Cookie` header is sent to the login page. */
  lemma AbsentHeaderRedirected(cookieHeader: Option<string>, decode: string -> Option<string>, access: Signer)
    requires cookieHeader.None? && DecodesPlainText(decode)
    ensures CheckAccessCookie(cookieHeader, decode, access) == Redirect(LoginPath)
  {
    AbsentHeaderParses(cookieHeader, decode);
    NoAccessCookie(access);
  }

  /** The middleware as written. Because "/" is a public prefix, every path
      that starts with "/" passes, so no path the matcher selects is ever
      checked. */
  function Gate(pathname: string, cookieHeader: Option<string>, decode: string -> Option<string>, access: Signer): (d: Decision)
    ensures StartsWith(pathname, "/") ==> d == Next
    ensures StartsWith(pathname, "/_next") || '.' in pathname ==> d == Next
    ensures Matched(pathname) ==> d == Next
    ensures d.Redirect? ==> d.pathname == LoginPath
  {
    assert StartsWith(pathname, "/") ==> StartsWith(pathname, PublicPaths[0]);
    assert Matched(pathname) ==> pathname[0] == '/';
    if Bypasses(pathname) then Next else CheckAccessCookie(cookieHeader, decode, access)
  }

  /** The public-path test with "/" matched exactly, as the protected paths
      of `config.matcher` need. */
  predicate IsPublicIntended(pathname: string)
  {
    pathname == "/" || exists i :: 1 <= i < |PublicPaths| && StartsWith(pathname, PublicPaths[i])
  }

  /** The middleware with the root matched exactly: a matched path without a
      dot gets the cookie check, the root and the other public paths still pass. */
  function IntendedGate(pathname: string, cookieHeader: Option<string>, decode: string -> Option<string>, access: Signer): (d: Decision)
    ensures Matched(pathname) && '.' !in pathname ==> d == CheckAccessCookie(cookieHeader, decode, access)
    ensures pathname == "/" || StartsWith(pathname, "/login") || StartsWith(pathname, "/api/auth/refresh") ==> d == Next
    ensures StartsWith(pathname, "/_next") || '.' in pathname ==> d == Next
    ensures d.Redirect? ==> d.pathname == LoginPath
  {
    assert StartsWith(pathname, "/login") ==> StartsWith(pathname, PublicPaths[1]);
    assert StartsWith(pathname, "/api/auth/refresh") ==> StartsWith(pathname, PublicPaths[5]);
    assert Matched(pathname) ==> !IsPublicIntended(pathname) && !StartsWith(pathname, "/_next") by {
      if Matched(pathname) {
        MatchedIsProtected(pathname);
      }
    }
    if IsPublicIntended(pathname) || StartsWith(pathname, "/_next") || '.' in pathname then Next
    else CheckAccessCookie(cookieHeader, decode, access)
  }

  /** No path the matcher selects starts with a public prefix other than "/",
      nor with "/_next". */
  lemma MatchedIsProtected(pathname: string)
    requires Matched(pathname)
    ensures !IsPublicIntended(pathname) && !StartsWith(pathname, "/_next")
  {
    var q := if Under(pathname, "/dashboard") then "/dashboard"
             else if Under(pathname, "/profile") then "/profile"
             else if Under(pathname, "/settings") then "/settings"
             else "/api/content/dashboard";
    assert StartsWith(pathname, q);
    assert |pathname| >= 8 && pathname[1] == q[1] && pathname[5] == q[5];
    forall i | 1 <= i < |PublicPaths| ensures !StartsWith(pathname, PublicPaths[i]) {
      var r := PublicPaths[i];
      assert |r| >= 6;
      assert r[1] != q[1] || r[5] != q[5];
    }
    assert "/_next"[1] != q[1];
  }

  /** An absent header is read as "", which parses to the single entry
      `"" -> ""`. */
  lemma ParseEmptyHeader(decode: string -> Option<string>)
    requires DecodesPlainText(decode)
    ensures ParseCookies("", decode) == Some(map["" := ""])
  {
    assert Split("", ';') == [""];
    SegmentParts("");
    assert decode("") == Some("");
    DecodeOne("", decode);
    assert FromEntries([("", "")]) == FromEntries([])["" := ""];
  }

  /** Decoding the entries of segments whose values hold no `%`. */
  lemma DecodePlain(raw: seq<(string, string)>, decode: string -> Option<string>)
    requires DecodesPlainText(decode)
    requires forall i :: 0 <= i < |raw| ==> '%' !in raw[i].1
    ensures DecodeValues(raw, decode) == Some(raw)
  {
    assert forall i :: 0 <= i < |raw| ==> decode(raw[i].1) == Some(raw[i].1);
    var r := DecodeValues(raw, decode);
    assert r.value == raw;
  }

  lemma RawOne(segment: string)
    ensures RawEntries([segment]) == [(SegmentKey(segment), SegmentValue(segment))]
  {
    assert [segment][1..] == [];
  }

  lemma RawTwo(s1: string, s2: string)
    ensures RawEntries([s1, s2]) == [(SegmentKey(s1), SegmentValue(s1)), (SegmentKey(s2), SegmentValue(s2))]
  {
    assert [s1, s2][1..] == [s2];
    RawOne(s2);
  }

  lemma DecodeOne(segment: string, decode: string -> Option<string>)
    requires DecodesPlainText(decode) && '%' !in SegmentValue(segment)
    ensures DecodeValues(RawEntries([segment]), decode) == Some([(SegmentKey(segment), SegmentValue(segment))])
  {
    RawOne(segment);
    DecodePlain([(SegmentKey(segment), SegmentValue(segment))], decode);
  }

  lemma DecodeTwo(s1: string, s2: string, decode: string -> Option<string>)
    requires DecodesPlainText(decode) && '%' !in SegmentValue(s1) && '%' !in SegmentValue(s2)
    ensures DecodeValues(RawEntries([s1, s2]), decode)
         == Some([(SegmentKey(s1), SegmentValue(s1)), (SegmentKey(s2), SegmentValue(s2))])
  {
    RawTwo(s1, s2);
    DecodePlain([(SegmentKey(s1), SegmentValue(s1)), (SegmentKey(s2), SegmentValue(s2))], decode);
  }

  /** The segment `key=value`, when `key` holds no `=`. */
  lemma SegmentOf(key: string, value: string)
    requires '=' !in key
    ensures SegmentKey(key + "=" + value) == Trim(key) && SegmentValue(key + "=" + value) == value
  {
    var s := key + "=" + value;
    assert s == key + ['='] + value;
    IndexOfAfterFront(key, '=', value);
    SegmentParts(s);
    assert s[..|key|] == key && s[|key| + 1..] == value;
  }

  /** `Object.fromEntries` of one and of two entries. */
  lemma FromOneOrTwo(e1: (string, string), e2: (string, string))
    ensures FromEntries([e1]) == map[e1.0 := e1.1]
    ensures FromEntries([e1, e2]) == map[e1.0 := e1.1][e2.0 := e2.1]
  {
    assert [e1][..0] == [];
    assert [e1, e2][..1] == [e1];
  }

  /** A header holding one cookie. */
  lemma ParseOneCookie(key: string, value: string, decode: string -> Option<string>)
    requires DecodesPlainText(decode)
    requires '=' !in key && ';' !in key && ';' !in value && '%' !in value
    ensures ParseCookies(key + "=" + value, decode) == Some(map[Trim(key) := value])
  {
    var s := key + "=" + value;
    assert ';' !in s by { assert s == key + ['='] + value; }
    SplitWithout(s, ';');
    SegmentOf(key, value);
    DecodeOne(s, decode);
    FromOneOrTwo((Trim(key), value), (Trim(key), value));
  }

  /** A header holding two cookies, as `key1=value1;key2=value2`. */
  lemma ParseTwoCookies(key1: string, value1: string, key2: string, value2: string, decode: string -> Option<string>)
    requires DecodesPlainText(decode)
    requires '=' !in key1 && ';' !in key1 && ';' !in value1 && '%' !in value1
    requires '=' !in key2 && ';' !in key2 && ';' !in value2 && '%' !in value2
    ensures ParseCookies(key1 + "=" + value1 + ";" + key2 + "=" + value2, decode)
         == Some(map[Trim(key1) := value1][Trim(key2) := value2])
  {
    var s1, s2 := key1 + "=" + value1, key2 + "=" + value2;
    assert ';' !in s1 by { assert s1 == key1 + ['='] + value1; }
    assert ';' !in s2 by { assert s2 == key2 + ['='] + value2; }
    assert key1 + "=" + value1 + ";" + key2 + "=" + value2 == s1 + [';'] + s2;
    SplitConcat(s1, ';', s2);
    SplitWithout(s2, ';');
    SegmentOf(key1, value1);
    SegmentOf(key2, value2);
    DecodeTwo(s1, s2, decode);
    FromOneOrTwo((Trim(key1), value1), (Trim(key2), value2));
  }

  lemma OverwriteTwice(m: map<string, string>, k: string, v1: string, v2: string)
    ensures m[k := v1][k := v2] == m[k := v2]
  {
  }

  /** A header that parses decides by its `access_token` entry alone. */
  lemma CheckParsed(header: string, cookies: map<string, string>, decode: string -> Option<string>, access: Signer)
    requires ParseCookies(header, decode) == Some(cookies)
    ensures CheckAccessCookie(Some(header), decode, access)
         == if AccessCookieName in cookies && cookies[AccessCookieName] != "" && access.verify(cookies[AccessCookieName]).Some?
            then Next else Redirect(LoginPath)
  {
  }

  /** With one `access_token=<t>` cookie: an empty token is treated as
      missing; otherwise the request passes exactly when the token verifies,
      and a token that fails gets the same redirect as a missing one. */
  lemma SingleAccessCookie(t: string, decode: string -> Option<string>, access: Signer)
    requires DecodesPlainText(decode) && ';' !in t && '%' !in t
    ensures CheckAccessCookie(Some(AccessCookieName + "=" + t), decode, access)
         == if t != "" && access.verify(t).Some? then Next else Redirect(LoginPath)
  {
    TrimUnspaced(AccessCookieName);
    ParseOneCookie(AccessCookieName, t, decode);
    CheckParsed(AccessCookieName + "=" + t, map[AccessCookieName := t], decode, access);
  }

  /** A segment without `=` gives its key the empty value, which counts as no
      token: `Cookie: access_token` is redirected. */
  lemma KeyWithoutValue(decode: string -> Option<string>, access: Signer)
    requires DecodesPlainText(decode)
    ensures CheckAccessCookie(Some(AccessCookieName), decode, access) == Redirect(LoginPath)
  {
    var k := AccessCookieName;
    TrimUnspaced(k);
    assert '=' !in k && ';' !in k;
    SplitWithout(k, ';');
    SegmentParts(k);
    DecodeOne(k, decode);
    FromOneOrTwo((k, ""), (k, ""));
    CheckParsed(k, map[k := ""], decode, access);
  }

  /** When `access_token` appears twice, the second one decides. */
  lemma LastAccessCookieWins(t1: string, t2: string, decode: string -> Option<string>, access: Signer)
    requires DecodesPlainText(decode) && ';' !in t1 && ';' !in t2 && '%' !in t1 && '%' !in t2
    ensures CheckAccessCookie(Some(AccessCookieName + "=" + t1 + ";" + AccessCookieName + "=" + t2), decode, access)
         == CheckAccessCookie(Some(AccessCookieName + "=" + t2), decode, access)
  {
    var k := AccessCookieName;
    TrimUnspaced(k);
    ParseTwoCookies(k, t1, k, t2, decode);
    OverwriteTwice(map[], k, t1, t2);
    CheckParsed(k + "=" + t1 + ";" + k + "=" + t2, map[k := t2], decode, access);
    SingleAccessCookie(t2, decode, access);
  }

  /** The discrepancy: an anonymous request for /dashboard passes the gate
      as written, while the intended gate sends it to /login. */
  lemma GateAdmitsAnonymousDashboard(decode: string -> Option<string>, access: Signer)
    requires DecodesPlainText(decode)
    ensures Gate("/dashboard", None, decode, access) == Next
    ensures IntendedGate("/dashboard", None, decode, access) == Redirect(LoginPath)
  {
    assert Matched("/dashboard") && '.' !in "/dashboard";
    assert IntendedGate("/dashboard", None, decode, access) == CheckAccessCookie(None, decode, access);
    AbsentHeaderRedirected(None, decode, access);
  }
}

=== FILE: refresh.dfy ===
/** `POST /api/auth/refresh` (`app/api/auth/refresh/route.ts`): trades a valid
    refresh-token cookie for a new access token and a new refresh token,
    signed over the user as stored now. */
module Refresh {
  import opened JsString
  import opened Json
  import opened Crypto
  import opened Http
  import opened Users
  import opened Login

  /** One of the two cookies the handler sets: HTTP-only, `secure` exactly in
      production, `SameSite=Lax`, for the whole site. */
  function IssuedCookie(name: string, value: string, maxAge: int, production: bool): (c: Cookie)
    ensures c.name == name && c.value == value
    ensures c.attributes == CookieOptions(maxAge, production)
  {
    Cookie(name, value, CookieAttributes(true, production, "lax", "/", maxAge))
  }

  /** The cookies the store holds for the response after a refresh for `u`:
      the earlier ones with the access and refresh cookies replaced. */
  function Rotated(outgoing: map<string, Cookie>, u: UserRecord, keys: Keys, production: bool): (m: map<string, Cookie>)
    ensures m.Keys == outgoing.Keys + {AccessCookieName, RefreshCookieName}
    ensures m[AccessCookieName] == SessionCookies(u, keys, production)[0]
    ensures m[RefreshCookieName] == SessionCookies(u, keys, production)[1]
    ensures forall n :: n in outgoing && n != AccessCookieName && n != RefreshCookieName ==> m[n] == outgoing[n]
  {
    var accessCookie := IssuedCookie(AccessCookieName, keys.access.sign(ClaimsOf(u)), AccessMaxAge, production);
    var refreshCookie := IssuedCookie(RefreshCookieName, keys.refresh.sign(ClaimsOf(u)), RefreshMaxAge, production);
    outgoing[AccessCookieName := accessCookie][RefreshCookieName := refreshCookie]
  }

  /** The claims of the request's refresh cookie, when it is present, not
      empty, and verifies as a refresh token. */
  function RefreshClaims(incoming: map<string, string>, keys: Keys): (c: Option<Claims>)
    ensures c.Some? <==> RefreshCookieName in incoming && incoming[RefreshCookieName] != ""
                         && keys.refresh.verify(incoming[RefreshCookieName]).Some?
    ensures c.Some? ==> keys.refresh.verify(incoming[RefreshCookieName]) == c
  {
    if RefreshCookieName !in incoming || incoming[RefreshCookieName] == "" then None
    else keys.refresh.verify(incoming[RefreshCookieName])
  }

  /** The response and the cookies stored for it, on the request's cookies
      and the ones stored before. 401 when the refresh cookie is missing or
      does not verify, 400 when its claims have no id, 500 when the id is not
      an ObjectId (the query throws), 404 when no such user is stored, and
      otherwise 200 with both cookies rotated for the stored user. Cookies
      change only on a 200. */
  function Outcome(incoming: map<string, string>, outgoing: map<string, Cookie>, users: seq<UserRecord>, keys: Keys, production: bool)
    : (out: (Response, map<string, Cookie>))
    ensures out.0.status == 401 <==> RefreshClaims(incoming, keys).None?
    ensures out.0.status == 400 <==> RefreshClaims(incoming, keys).Some? && Falsy(RefreshClaims(incoming, keys).value.id)
    ensures out.0.status == 500 <==>
      var c := RefreshClaims(incoming, keys);
      c.Some? && !Falsy(c.value.id) && CastObjectId(c.value.id.value).None?
    ensures out.0.status == 404 <==>
      var c := RefreshClaims(incoming, keys);
      c.Some? && !Falsy(c.value.id) && CastObjectId(c.value.id.value).Some?
      && FindOne(users, ById(CastObjectId(c.value.id.value).value)).None?
    ensures out.0.status in {200, 400, 401, 404, 500}
    ensures out.0.status == 401 ==> out.0 == ErrorResponse(401,
      if RefreshCookieName in incoming && incoming[RefreshCookieName] != "" then "Invalid refresh token" else "No refresh token")
    ensures out.0.status == 400 ==> out.0 == ErrorResponse(400, "Invalid payload")
    ensures out.0.status == 404 ==> out.0 == ErrorResponse(404, "User not found")
    ensures out.0.status == 500 ==> out.0 == ServerError()
    ensures out.0.status == 200 ==>
      var id := CastObjectId(RefreshClaims(incoming, keys).value.id.value).value;
      var u := FindOne(users, ById(id)).value;
      && u in users && u.id == id
      && out.1 == Rotated(outgoing, u, keys, production)
      && out.0.body == JObject([Member("message", JString("Token refreshed")), Member("user", PublicUser(u))])
    ensures out.0.status != 200 ==> out.1 == outgoing
    ensures out.0.setCookie == [] && Lacks(out.0.body, "password")
  {
    var refresh := if RefreshCookieName in incoming then Some(incoming[RefreshCookieName]) else None;
    if Falsy(refresh) then (ErrorResponse(401, "No refresh token"), outgoing)
    else
      match keys.refresh.verify(refresh.value)
      case None => (ErrorResponse(401, "Invalid refresh token"), outgoing)
      case Some(payload) =>
        if Falsy(payload.id) then (ErrorResponse(400, "Invalid payload"), outgoing)
        else
          match CastObjectId(payload.id.value)
          case None => (ServerError(), outgoing)
          case Some(id) =>
            match FindOne(users, ById(id))
            case None => (ErrorResponse(404, "User not found"), outgoing)
            case Some(user) =>
              var body := JObject([Member("message", JString("Token refreshed")), Member("user", PublicUser(user))]);
              (Response(200, body, []), Rotated(outgoing, user, keys, production))
  }

  /** The handler itself, on the request-scoped cookie store. */
  method Post(jar: CookieStore, users: seq<UserRecord>, keys: Keys, production: bool) returns (res: Response)
    modifies jar
    ensures jar.incoming == old(jar.incoming)
    ensures (res, jar.outgoing) == Outcome(old(jar.incoming), old(jar.outgoing), users, keys, production)
  {
    var refresh := jar.Get(RefreshCookieName);
    if Falsy(refresh) {
      return ErrorResponse(401, "No refresh token");
    }
    var payload := keys.refresh.verify(refresh.value);
    if payload.None? {
      return ErrorResponse(401, "Invalid refresh token");
    }
    if Falsy(payload.value.id) {
      return ErrorResponse(400, "Invalid payload");
    }
    var id := CastObjectId(payload.value.id.value);
    if id.None? {
      return ServerError();
    }
    var user := FindOne(users, ById(id.value));
    if user.None? {
      return ErrorResponse(404, "User not found");
    }
    var u := user.value;
    var newAccessToken := keys.access.sign(ClaimsOf(u));
    var newRefreshToken := keys.refresh.sign(ClaimsOf(u));
    jar.Set(IssuedCookie(AccessCookieName, newAccessToken, AccessMaxAge, production));
    jar.Set(IssuedCookie(RefreshCookieName, newRefreshToken, RefreshMaxAge, production));
    res := Response(200, JObject([Member("message", JString("Token refreshed")), Member("user", PublicUser(u))]), []);
  }

  /** A refresh token issued for a stored user is exchanged for the very
      cookies a login of that user sets, and leaves every other cookie alone. */
  lemma RefreshRotates(incoming: map<string, string>, outgoing: map<string, Cookie>, users: seq<UserRecord>, k: nat, keys: Keys, production: bool)
    requires Indexed(users) && k < |users| && RoundTrips(keys.refresh)
    requires RefreshCookieName in incoming && incoming[RefreshCookieName] == keys.refresh.sign(ClaimsOf(users[k]))
    ensures var out := Outcome(incoming, outgoing, users, keys, production);
      out.0.status == 200 && out.1 == Rotated(outgoing, users[k], keys, production)
  {
    var u := users[k];
    assert keys.refresh.verify(keys.refresh.sign(ClaimsOf(u))) == Some(ClaimsOf(u));
    assert IsCompact(keys.refresh.sign(ClaimsOf(u)));
    assert IsObjectId(u.id);
    FindOneByUniqueId(users, k);
  }

  /** An access token in the refresh cookie is refused, and no cookie is set. */
  lemma AccessTokenRefused(incoming: map<string, string>, outgoing: map<string, Cookie>, users: seq<UserRecord>, c: Claims, keys: Keys, production: bool)
    requires Separated(keys) && RoundTrips(keys.access)
    requires RefreshCookieName in incoming && incoming[RefreshCookieName] == keys.access.sign(c)
    ensures Outcome(incoming, outgoing, users, keys, production) == (ErrorResponse(401, "Invalid refresh token"), outgoing)
  {
    assert keys.refresh.verify(keys.access.sign(c)).None?;
    assert IsCompact(keys.access.sign(c));
  }

  /** The new tokens carry the user as stored, not the claims of the old
      token: a token whose email is out of date is refreshed into one with the
      stored email. */
  lemma ClaimsFromStore(incoming: map<string, string>, outgoing: map<string, Cookie>, users: seq<UserRecord>, k: nat, staleEmail: string, keys: Keys, production: bool)
    requires Indexed(users) && k < |users| && Lawful(keys)
    requires RefreshCookieName in incoming
    requires incoming[RefreshCookieName] == keys.refresh.sign(Claims(Some(users[k].id), Some(staleEmail)))
    ensures var out := Outcome(incoming, outgoing, users, keys, production);
      out.0.status == 200
      && keys.access.verify(out.1[AccessCookieName].value) == Some(ClaimsOf(users[k]))
      && keys.refresh.verify(out.1[RefreshCookieName].value) == Some(ClaimsOf(users[k]))
  {
    var u := users[k];
    var c := Claims(Some(u.id), Some(staleEmail));
    assert keys.refresh.verify(keys.refresh.sign(c)) == Some(c);
    assert IsCompact(keys.refresh.sign(c));
    assert IsObjectId(u.id);
    FindOneByUniqueId(users, k);
    assert keys.access.verify(keys.access.sign(ClaimsOf(u))) == Some(ClaimsOf(u));
    assert keys.refresh.verify(keys.refresh.sign(ClaimsOf(u))) == Some(ClaimsOf(u));
  }
}

=== FILE: register.dfy ===
/** `POST /api/auth/register` (`app/api/auth/register/route.ts`): creates an
    account, storing the bcrypt hash of the password, and answers with the
    new user without its password. */
module Register {
  import opened JsString
  import opened Json
  import opened Crypto
  import opened Http
  import opened Users

  /** The fields read from the parsed JSON body. For `email` and `password`,
      `None` stands for a field that is absent, `null` or `undefined`; for
      `name` it stands for one that is absent or `undefined`, and a `null`
      name is outside the model. Fields holding numbers, booleans, objects
      or arrays are outside the model. */
  datatype RegisterBody = RegisterBody(name: Option<string>, email: Option<string>, password: Option<string>)

  /** The fields are present exactly when neither email nor password is falsy. */
  predicate HasCredentials(b: RegisterBody)
  {
    !Falsy(b.email) && !Falsy(b.password)
  }

  /** `new User({ name, email, password: hashed })` with the `_id` the
      driver generates and the schema's default role. */
  function NewUser(b: RegisterBody, newId: string, hasher: Hasher): (u: UserRecord)
    requires HasCredentials(b)
    ensures u.id == newId && u.name == b.name && u.email == b.email.value
    ensures u.password == hasher.hash(b.password.value, SaltRounds) && u.role == DefaultRole
  {
    UserRecord(newId, b.name, b.email.value, hasher.hash(b.password.value, SaltRounds), DefaultRole)
  }

  predicate EmailTaken(users: seq<UserRecord>, email: string)
  {
    exists i :: 0 <= i < |users| && users[i].email == email
  }

  predicate IdTaken(users: seq<UserRecord>, id: string)
  {
    exists i :: 0 <= i < |users| && users[i].id == id
  }

  /** The response and the collection after the handler, on the collection
      before it. `body` is `None` when the request body is not JSON, which
      throws; `newId` is the id the driver generates. Only a 201 changes the
      collection, by appending the new user; no answer carries a password. */
  function Outcome(users: seq<UserRecord>, body: Option<RegisterBody>, newId: string, hasher: Hasher)
    : (out: (Response, seq<UserRecord>))
    ensures out.0.status == 201 <==>
      body.Some? && HasCredentials(body.value)
      && !EmailTaken(users, body.value.email.value) && !IdTaken(users, newId)
    ensures out.0.status == 400 <==> body.Some? && !HasCredentials(body.value)
    ensures out.0.status == 409 <==> body.Some? && HasCredentials(body.value) && EmailTaken(users, body.value.email.value)
    ensures out.0.status in {201, 400, 409, 500}
    ensures out.0.status == 400 ==> out.0 == ErrorResponse(400, "Missing fields")
    ensures out.0.status == 409 ==> out.0 == ErrorResponse(409, "User exists")
    ensures out.0.status == 500 ==> out.0 == ServerError()
    ensures out.0.status == 201 ==> out.1 == users + [NewUser(body.value, newId, hasher)]
    ensures out.0.status != 201 ==> out.1 == users
    ensures out.0.status == 201 ==>
      out.0.body == JObject([Member("user", PublicUser(NewUser(body.value, newId, hasher)))])
    ensures Lacks(out.0.body, "password") && out.0.setCookie == []
    ensures Indexed(users) && IsObjectId(newId) ==> Indexed(out.1)
  {
    if body.None? then (ServerError(), users)
    else if !HasCredentials(body.value) then (ErrorResponse(400, "Missing fields"), users)
    else if FindOne(users, ByEmail(body.value.email.value)).Some? then (ErrorResponse(409, "User exists"), users)
    else
      var u := NewUser(body.value, newId, hasher);
      match Save(users, u)
      case None => (ServerError(), users)
      case Some(stored) =>
        var user := PublicUser(u);
        (Response(201, JObject([Member("user", user)]), []), stored)
  }

  /** The handler itself, on the collection it writes to. */
  method Post(db: UserCollection, body: Option<RegisterBody>, newId: string, hasher: Hasher) returns (res: Response)
    modifies db
    ensures (res, db.users) == Outcome(old(db.users), body, newId, hasher)
    ensures old(db.Valid()) && IsObjectId(newId) ==> db.Valid()
  {
    if body.None? {
      return ServerError();
    }
    var b := body.value;
    if Falsy(b.email) || Falsy(b.password) {
      return ErrorResponse(400, "Missing fields");
    }
    var existing := FindOne(db.users, ByEmail(b.email.value));
    if existing.Some? {
      return ErrorResponse(409, "User exists");
    }
    var hashed := hasher.hash(b.password.value, SaltRounds);
    var user := UserRecord(newId, b.name, b.email.value, hashed, DefaultRole);
    var ok := db.Insert(user);
    if !ok {
      return ServerError();
    }
    res := Response(201, JObject([Member("user", PublicUser(user))]), []);
  }

  /** After a successful registration, looking the email up finds the new
      user, and under a lawful hasher the submitted password matches the
      stored hash. */
  lemma {:induction false} RegisteredUserFound(users: seq<UserRecord>, b: RegisterBody, newId: string, hasher: Hasher)
    requires Indexed(users) && IsObjectId(newId)
    requires Outcome(users, Some(b), newId, hasher).0.status == 201
    ensures var after := Outcome(users, Some(b), newId, hasher).1;
      FindOne(after, ByEmail(b.email.value)) == Some(NewUser(b, newId, hasher))
      && FindOne(after, ById(newId)) == Some(NewUser(b, newId, hasher))
    ensures HashLawful(hasher) ==>
      hasher.compare(b.password.value, NewUser(b, newId, hasher).password)
  {
    var after := Outcome(users, Some(b), newId, hasher).1;
    var k := |users|;
    assert after[k] == NewUser(b, newId, hasher);
    FindOneByUniqueEmail(after, k);
    FindOneByUniqueId(after, k);
  }

  /** A second registration with the same email is refused with 409 and
      leaves the collection as it was, whatever the name and password. */
  lemma SecondRegistrationRefused(users: seq<UserRecord>, b: RegisterBody, b2: RegisterBody, newId: string, newId2: string, hasher: Hasher)
    requires Outcome(users, Some(b), newId, hasher).0.status == 201
    requires HasCredentials(b2) && b2.email == b.email
    ensures var after := Outcome(users, Some(b), newId, hasher).1;
      Outcome(after, Some(b2), newId2, hasher) == (ErrorResponse(409, "User exists"), after)
  {
    var after := Outcome(users, Some(b), newId, hasher).1;
    assert after[|users|].email == b.email.value;
  }

  /** Emails are compared exactly: an address that differs from a stored one
      only in letter case is a different account. */
  lemma EmailCaseSensitive(stored: UserRecord, password: string, newId: string, hasher: Hasher)
    requires stored.email == "a@b.com" && stored.id != newId && password != ""
    ensures Outcome([stored], Some(RegisterBody(None, Some("A@b.com"), Some(password))), newId, hasher).0.status == 201
  {
    assert !EmailTaken([stored], "A@b.com") by {
      assert "A@b.com"[0] != "a@b.com"[0];
    }
  }
}

=== FILE: session.dfy ===
/** How the handlers and the middleware work together over one account:
    registration, login, the protected pages, refresh and `me`. */
module Session {
  import opened JsString
  import opened Json
  import opened Crypto
  import opened Http
  import opened Users
  import Register
  import Login
  import Refresh
  import Me
  import Middleware

  /** Tokens use only base64url digits and dots, so they hold no `;` and no
      `%` and are sent in a `Cookie` header as they are. */
  lemma CompactIsPlain(t: string)
    requires IsCompact(t)
    ensures ';' !in t && '%' !in t && t != ""
  {
    assert forall i :: 0 <= i < |t| ==> IsCompactChar(t[i]);
  }

  /** Register, then log in with the same email and password, then ask `me`
      with the access cookie: the login succeeds and `me` returns the new
      user's document without its password. */
  lemma RegisterLoginMe(users: seq<UserRecord>, b: Register.RegisterBody, newId: string, hasher: Hasher, keys: Keys, production: bool)
    requires Indexed(users) && IsObjectId(newId) && HashLawful(hasher) && Lawful(keys)
    requires Register.Outcome(users, Some(b), newId, hasher).0.status == 201
    ensures var after := Register.Outcome(users, Some(b), newId, hasher).1;
      var login := Login.Post(after, Some(Login.LoginBody(b.email, b.password)), hasher, keys, production);
      && login.status == 200
      && Me.Get(after, map[AccessCookieName := login.setCookie[0].value], keys.access)
         == Response(200, JObject([Member("user", PublicDocument(Register.NewUser(b, newId, hasher)))]), [])
  {
    var after := Register.Outcome(users, Some(b), newId, hasher).1;
    var u := Register.NewUser(b, newId, hasher);
    Register.RegisteredUserFound(users, b, newId, hasher);
    var lb := Login.LoginBody(b.email, b.password);
    assert Login.Authenticates(after, lb, hasher);
    var k := |users|;
    assert after[k] == u;
    Me.TokenNamesUser(after, k, map[AccessCookieName := keys.access.sign(Login.ClaimsOf(u))], Some(u.email), keys.access);
  }

  /** The `Cookie` header a browser sends back after a login,
      `access_token=<a>; refresh_token=<r>`. */
  function CookieHeader(accessToken: string, refreshToken: string): string
  {
    AccessCookieName + "=" + accessToken + ";" + (" " + RefreshCookieName) + "=" + refreshToken
  }

  /** The two cookie names survive the trimming of the parser, the second
      one after the space that follows `;`. */
  lemma NamesTrim()
    ensures Trim(AccessCookieName) == AccessCookieName
    ensures Trim(" " + RefreshCookieName) == RefreshCookieName
  {
    AccessNameTrims();
    RefreshNameTrims();
  }

  lemma AccessNameTrims()
    ensures Trim(AccessCookieName) == AccessCookieName
  {
    TrimUnspaced(AccessCookieName);
  }

  lemma RefreshNameTrims()
    ensures Trim(" " + RefreshCookieName) == RefreshCookieName
  {
    var n := RefreshCookieName;
    TrimUnspaced(n);
    TrimLeadingSpace(n);
  }

  /** The cookie names hold neither `=` nor `;`. */
  lemma NamesPlain()
    ensures '=' !in AccessCookieName && ';' !in AccessCookieName
    ensures '=' !in " " + RefreshCookieName && ';' !in " " + RefreshCookieName
  {
  }

  /** The two segments of the browser's header, once the names are known
      to be plain and to trim to themselves. */
  lemma ParseNamedPair(a: string, r: string, decode: string -> Option<string>)
    requires Middleware.DecodesPlainText(decode)
    requires ';' !in a && '%' !in a && ';' !in r && '%' !in r
    requires '=' !in AccessCookieName && ';' !in AccessCookieName
    requires '=' !in " " + RefreshCookieName && ';' !in " " + RefreshCookieName
    requires Trim(AccessCookieName) == AccessCookieName
    requires Trim(" " + RefreshCookieName) == RefreshCookieName
    ensures Middleware.ParseCookies(AccessCookieName + "=" + a + ";" + (" " + RefreshCookieName) + "=" + r, decode)
         == Some(map[AccessCookieName := a][RefreshCookieName := r])
  {
    Middleware.ParseTwoCookies(AccessCookieName, a, " " + RefreshCookieName, r, decode);
  }

  /** The browser's header parses to exactly the two cookies. */
  lemma HeaderParses(a: string, r: string, decode: string -> Option<string>)
    requires IsCompact(a) && IsCompact(r) && Middleware.DecodesPlainText(decode)
    ensures Middleware.ParseCookies(CookieHeader(a, r), decode)
         == Some(map[AccessCookieName := a][RefreshCookieName := r])
  {
    CompactIsPlain(a);
    CompactIsPlain(r);
    NamesPlain();
    NamesTrim();
    ParseNamedPair(a, r, decode);
  }

  /** A verifying access token sent back with the refresh token opens every
      protected page under the intended gate. */
  lemma TokensPassGate(a: string, r: string, pathname: string, decode: string -> Option<string>, access: Signer)
    requires IsCompact(a) && IsCompact(r) && access.verify(a).Some?
    requires Middleware.DecodesPlainText(decode) && Middleware.Matched(pathname)
    ensures Middleware.IntendedGate(pathname, Some(CookieHeader(a, r)), decode, access) == Middleware.Next
  {
    HeaderParses(a, r, decode);
    var cookies := map[AccessCookieName := a][RefreshCookieName := r];
    assert cookies[AccessCookieName] == a;
    Middleware.CheckParsed(CookieHeader(a, r), cookies, decode, access);
    Middleware.MatchedIsProtected(pathname);
  }

  /** The cookies of a successful login, sent back by the browser, open the
      protected pages under the intended gate. */
  lemma LoginCookiesPassGate(users: seq<UserRecord>, b: Login.LoginBody, hasher: Hasher, keys: Keys, production: bool,
                             pathname: string, decode: string -> Option<string>)
    requires Lawful(keys) && Middleware.DecodesPlainText(decode)
    requires Login.Post(users, Some(b), hasher, keys, production).status == 200
    requires Middleware.Matched(pathname)
    ensures var cs := Login.Post(users, Some(b), hasher, keys, production).setCookie;
      Middleware.IntendedGate(pathname, Some(CookieHeader(cs[0].value, cs[1].value)), decode, keys.access) == Middleware.Next
  {
    Login.SessionIssued(users, b, hasher, keys, production);
    var u := FindOne(users, ByEmail(b.email.value)).value;
    var a, r := keys.access.sign(Login.ClaimsOf(u)), keys.refresh.sign(Login.ClaimsOf(u));
    assert IsCompact(a) && IsCompact(r);
    TokensPassGate(a, r, pathname, decode, keys.access);
  }

  /** After a login, the refresh cookie is exchanged for new cookies, and the
      new access cookie still names the same user to `me`. */
  lemma LoginRefreshMe(users: seq<UserRecord>, b: Login.LoginBody, hasher: Hasher, keys: Keys, production: bool)
    requires Indexed(users) && Lawful(keys)
    requires Login.Post(users, Some(b), hasher, keys, production).status == 200
    ensures var login := Login.Post(users, Some(b), hasher, keys, production);
      var u := FindOne(users, ByEmail(b.email.value)).value;
      var refresh := Refresh.Outcome(map[RefreshCookieName := login.setCookie[1].value], map[], users, keys, production);
      && refresh.0.status == 200
      && Me.Get(users, map[AccessCookieName := refresh.1[AccessCookieName].value], keys.access)
         == Response(200, JObject([Member("user", PublicDocument(u))]), [])
  {
    var u := FindOne(users, ByEmail(b.email.value)).value;
    var k :| 0 <= k < |users| && users[k] == u;
    var incoming := map[RefreshCookieName := keys.refresh.sign(Login.ClaimsOf(u))];
    Refresh.RefreshRotates(incoming, map[], users, k, keys, production);
    Me.TokenNamesUser(users, k, map[AccessCookieName := keys.access.sign(Login.ClaimsOf(u))], Some(u.email), keys.access);
  }
}

=== FILE: users.dfy ===
/** The `User` collection of `models/User.ts`: its records, the two queries
    the handlers issue, and the unique indexes on `_id` and `email`. */
module Users {
  import opened JsString
  import opened Json

  /** One stored document. `password` holds the bcrypt hash; `name` may be
      absent (a `null` name is not modelled); `role` defaults to "user".
      Timestamps are not modelled. */
  datatype UserRecord = UserRecord(id: string, name: Option<string>, email: string, password: string, role: string)

  const DefaultRole := "user"

  predicate IsHexDigit(c: char)
  {
    '0' <= c <= '9' || 'a' <= c <= 'f' || 'A' <= c <= 'F'
  }

  predicate IsLowerHexDigit(c: char)
  {
    '0' <= c <= '9' || 'a' <= c <= 'f'
  }

  /** The text form of an ObjectId: 24 lower-case hexadecimal digits. */
  predicate IsObjectId(s: string)
  {
    |s| == 24 && forall i :: 0 <= i < |s| ==> IsLowerHexDigit(s[i])
  }

  function LowerHexDigit(c: char): (d: char)
    requires IsHexDigit(c)
    ensures IsLowerHexDigit(d)
  {
    if 'A' <= c <= 'F' then (c as int + 32) as char else c
  }

  /** How a query casts a string to an ObjectId: 24 hexadecimal digits of
      either case are accepted and name the id in lower case; anything else
      makes the query throw a CastError (`None`). */
  function CastObjectId(s: string): (r: Option<string>)
    ensures r.Some? <==> |s| == 24 && forall i :: 0 <= i < |s| ==> IsHexDigit(s[i])
    ensures r.Some? ==> IsObjectId(r.value)
    ensures IsObjectId(s) ==> r == Some(s)
  {
    if |s| == 24 && forall i :: 0 <= i < |s| ==> IsHexDigit(s[i]) then
      var t := seq(|s|, i requires 0 <= i < |s| => LowerHexDigit(s[i]));
      assert IsObjectId(s) ==> t == s;
      Some(t)
    else None
  }

  /** A query filter: `{ email }` or `{ _id }` (what `findById` sends). */
  datatype Filter = ByEmail(email: string) | ById(id: string)

  predicate Matches(u: UserRecord, f: Filter)
  {
    match f
    case ByEmail(e) => u.email == e
    case ById(id) => u.id == id
  }

  /** `findOne(filter)`: the first stored document, in insertion order, that
      the filter matches. Strings are compared exactly, with no trimming and
      no case folding. */
  function FindOne(users: seq<UserRecord>, f: Filter): (r: Option<UserRecord>)
    ensures r.Some? ==> r.value in users && Matches(r.value, f)
    ensures r.None? <==> forall i :: 0 <= i < |users| ==> !Matches(users[i], f)
  {
    if users == [] then None
    else if Matches(users[0], f) then Some(users[0])
    else
      var r := FindOne(users[1..], f);
      assert forall i :: 0 < i < |users| ==> users[i] == users[1..][i - 1];
      r
  }

  /** The unique indexes: no two documents share an `_id` or an `email`, and
      every `_id` is an ObjectId. */
  ghost predicate Indexed(users: seq<UserRecord>)
  {
    && (forall i :: 0 <= i < |users| ==> IsObjectId(users[i].id))
    && (forall i, j :: 0 <= i < j < |users| ==> users[i].id != users[j].id)
    && (forall i, j :: 0 <= i < j < |users| ==> users[i].email != users[j].email)
  }

  /** Under the unique email index the stored document with an email is the
      one `findOne({ email })` returns. */
  lemma {:induction false} FindOneByUniqueEmail(users: seq<UserRecord>, k: nat)
    requires Indexed(users) && k < |users|
    ensures FindOne(users, ByEmail(users[k].email)) == Some(users[k])
  {
    if k > 0 {
      assert Indexed(users[1..]);
      assert users[1..][k - 1] == users[k];
      FindOneByUniqueEmail(users[1..], k - 1);
    }
  }

  /** Under the unique `_id` index the stored document with an id is the one
      `findById` returns. */
  lemma {:induction false} FindOneByUniqueId(users: seq<UserRecord>, k: nat)
    requires Indexed(users) && k < |users|
    ensures FindOne(users, ById(users[k].id)) == Some(users[k])
  {
    if k > 0 {
      assert Indexed(users[1..]);
      assert users[1..][k - 1] == users[k];
      FindOneByUniqueId(users[1..], k - 1);
    }
  }

  /** `save()` of a new document: `None` is the duplicate-key error the
      unique indexes raise; otherwise the document is appended. */
  function Save(users: seq<UserRecord>, u: UserRecord): (r: Option<seq<UserRecord>>)
    ensures r.Some? <==> forall i :: 0 <= i < |users| ==> users[i].id != u.id && users[i].email != u.email
    ensures r.Some? ==> r.value == users + [u]
    ensures r.Some? && Indexed(users) && IsObjectId(u.id) ==> Indexed(r.value)
  {
    if FindOne(users, ById(u.id)).Some? || FindOne(users, ByEmail(u.email)).Some? then None
    else Some(users + [u])
  }

  /** The members of a stored document before and after the password, as
      `findById(id).lean()` returns them. */
  function DocumentHead(u: UserRecord): seq<Member>
  {
    [Member("_id", JString(u.id))]
    + (if u.name.Some? then [Member("name", JString(u.name.value))] else [])
    + [Member("email", JString(u.email))]
  }

  function DocumentTail(u: UserRecord): seq<Member>
  {
    [Member("role", JString(u.role))]
  }

  /** The document as `findById(id).lean()` returns it, password included. */
  function Document(u: UserRecord): Json
  {
    JObject(DocumentHead(u) + [Member("password", JString(u.password))] + DocumentTail(u))
  }

  lemma HeadTailWithoutPassword(u: UserRecord)
    ensures forall i :: 0 <= i < |DocumentHead(u)| ==> DocumentHead(u)[i].key != "password"
    ensures forall i :: 0 <= i < |DocumentTail(u)| ==> DocumentTail(u)[i].key != "password"
  {
  }

  /** Removing the password from the stored document leaves the members
      before and after it. */
  lemma OmitPassword(u: UserRecord)
    ensures Omit(Document(u).members, "password") == DocumentHead(u) + DocumentTail(u)
  {
    var head, pw, tail := DocumentHead(u), [Member("password", JString(u.password))], DocumentTail(u);
    HeadTailWithoutPassword(u);
    OmitNothing(head, "password");
    OmitNothing(tail, "password");
    assert Omit(pw, "password") == [];
    OmitConcat(head, pw, "password");
    OmitConcat(head + pw, tail, "password");
  }

  /** The document as `findById(id).select("-password").lean()` returns it:
      everything but the password, in order. */
  function PublicDocument(u: UserRecord): (j: Json)
    ensures Lacks(j, "password")
    ensures j == JObject(DocumentHead(u) + DocumentTail(u))
  {
    OmitPassword(u);
    var ms := DocumentHead(u) + DocumentTail(u);
    assert forall i :: 0 <= i < |ms| ==> ms[i].value.JString? && ms[i].key != "password";
    JObject(Omit(Document(u).members, "password"))
  }

  /** `{ id: user._id, email: user.email, name: user.name }`; a missing name
      is dropped when the object is serialized (a `null` one, which would be
      kept as `"name": null`, is not modelled). */
  function PublicUser(u: UserRecord): (j: Json)
    ensures Lacks(j, "password")
    ensures Field(j, "id") == Some(JString(u.id)) && Field(j, "email") == Some(JString(u.email))
    ensures Field(j, "name") == if u.name.Some? then Some(JString(u.name.value)) else None
    ensures j.JObject? && |j.members| == if u.name.Some? then 3 else 2
    ensures forall i :: 0 <= i < |j.members| ==> j.members[i].key in {"id", "email", "name"}
  {
    var ms := [Member("id", JString(u.id)), Member("email", JString(u.email))]
              + (if u.name.Some? then [Member("name", JString(u.name.value))] else []);
    assert ms[1..][0].key == "email";
    assert FirstNamed(ms, "name") == FirstNamed(ms[1..], "name") == FirstNamed(ms[2..], "name") by {
      assert ms[1..][1..] == ms[2..];
    }
    assert ms[2..] == if u.name.Some? then [Member("name", JString(u.name.value))] else [];
    JObject(ms)
  }

  /** The collection as the register handler changes it. */
  class UserCollection {
    var users: seq<UserRecord>

    ghost predicate Valid()
      reads this
    {
      Indexed(users)
    }

    constructor ()
      ensures Valid() && users == []
    {
      users := [];
    }

    /** `new User(u)` followed by `await user.save()`: `ok` is false when a
        unique index refuses the document, and then nothing is stored. */
    method Insert(u: UserRecord) returns (ok: bool)
      modifies this
      ensures ok <==> Save(old(users), u).Some?
      ensures users == if ok then old(users) + [u] else old(users)
      ensures old(Valid()) && IsObjectId(u.id) ==> Valid()
    {
      var saved := Save(users, u);
      ok := saved.Some?;
      if ok {
        users := saved.value;
      }
    }
  }
}
